=== FILE: README.md ===
# QuizSolver App — a Dafny model of the page logic

QuizSolver App is a single-page web application. A user picks a content type (quiz, notes or
assignment), a topic, a difficulty and a question count. The page builds a prompt, sends it
to a generative-AI endpoint and shows the returned text. It keeps the ten most recent
generations in browser storage, and offers copy, download, theme and menu toggles, a history
dialog and a social-share dialog. Every handler reports to Google Analytics through a small
wrapper.

This project models that logic as pure Dafny functions over immutable values and proves
properties about them. Each part of the page is modelled as follows:

- **Content generation.** `generateContent` is split at its first `await`, the `fetch` call
  (app/page.tsx:117). `Generation.Start` covers the blank-topic guard, the loading flag, the
  start event, the prompt and the request. `Generation.Finish` covers the rest, including the
  second `await` on `response.json()` (app/page.tsx:125): it applies the provider's outcome,
  shows the result or the error text, saves to history, reports, and always clears the loading
  flag. The outcome is an input: the decoded body, or the value thrown by `fetch`,
  `response.json()` or the property read on a `null` body. `Generation.Generate` runs the two
  halves one after the other. The values the handler
  closure captured when it was invoked are carried from Start to Finish in a `Pending` record.
- **Side effects.** Toasts, analytics calls, the request, storage writes, clipboard writes,
  downloads, `window.open` and theme changes are returned as a list of `Effects.Effect`
  values. Properties are stated over views of that list: `Tracked`, `Tracks`, `Toasts`,
  `Stores` and `Fetches`.
- **JavaScript text behaviour.** `JsText` models the built-ins whose edge cases matter:
  - `trim` over the ECMAScript white-space and line-terminator set;
  - `Number.parseInt` without a radix, including the sign, the `0x` prefix, the longest digit
    run, and `NaN` as `None`;
  - decimal rendering of integers;
  - ASCII upper-casing of a first letter;
  - `slice`.
- **URI encoding.** `UriEncoding` models `encodeURIComponent` as UTF-8 followed by
  upper-case `%XY` escapes, as in section 2.1 of RFC 3986 and section 3 of RFC 3629. It also
  has an independent decoder (`decodeURIComponent`), which serves as the partner in the
  round-trip proofs.
- **Analytics.** `trackEvent` spreads the caller's parameters over three defaults. This is a
  map union in which the caller wins. The six typed helpers are built on it. Whether `gtag`
  is loaded is a boolean parameter.

## Behaviour worth knowing

- **Unknown content type.** Any content type other than `quiz` or `notes` gets the assignment
  prompt, because the last branch is a plain `else` (app/page.tsx:107-108; `Prompt.Build`).
- **Unreadable stored history.** The stored history is parsed without any guard
  (`JSON.parse` at app/page.tsx:66), so a malformed value throws during mount.
  `Generation.Mount` takes the already-parsed list as an input, and the parse itself is left
  out.
- **HTTP status.** The HTTP status is never checked (app/page.tsx:117-126). Any response body
  goes through the same extraction, so an error body without `candidates` shows the
  placeholder "No result generated" with a success toast (`Generation.Finish`).
- **Empty result text.** The placeholder also replaces an empty result text, not only a
  missing one, because the fallback uses `||` (app/page.tsx:126).
- **Ambiguous quiz prompt.** The topic is put into the quiz prompt between double quotes
  without escaping (app/page.tsx:104). A topic that itself contains `" with answers.
  Difficulty: ` therefore yields the same prompt as a shorter topic with a longer difficulty
  (`Prompt.QuizPromptAmbiguous`). The topic and difficulty can be read back from a quiz prompt
  only when the topic's length is known (`Prompt.BuildInjective`).

## Model

| member | source | states |
|---|---|---|
| JsText.Trim | app/page.tsx:86 | the trimmed text is a contiguous infix of the input that starts and ends with non-white-space characters; everything cut away on either side is white space |
| JsText.BlankIffAllWhiteSpace | app/page.tsx:86 | `!topic.trim()` holds exactly when every character of the topic is ECMAScript white space or a line terminator (the empty topic included) |
| JsText.ParseInt | app/page.tsx:448 | `Number.parseInt` yields `NaN` for any input without a decimal digit, and a negative number only when the input has a minus sign |
| JsText.IntToString | app/page.tsx:104 | `${count}` is an optional minus sign (present exactly for negatives) followed by decimal digits, without leading zeros and never `-0` |
| JsText.ParseIntOfIntToString | app/page.tsx:448 | `parseInt` reads back any integer from its decimal rendering, including negatives, when what follows cannot continue the number: nothing, or a non-digit that is not the `x`/`X` turning a lone `0` into a hexadecimal prefix (so `parseInt("12a")` is 12) |
| JsText.Capitalize | components/social-share.tsx:37 | `charAt(0).toUpperCase() + slice(1)`: same length, first character upper-cased, the rest unchanged |
| JsText.Prefix | app/page.tsx:325 | `slice(0, n)` is a prefix of the string of length `min(n, length)` |
| UriEncoding.Encode | components/social-share.tsx:21-23 | the encoding is never shorter than its input and is a run of unreserved characters and `%XY` escapes whose hex digits are upper-case |
| UriEncoding.EncodeChar | components/social-share.tsx:21-23 | an unreserved character stands for itself; any other character becomes one escape per octet of its UTF-8 encoding |
| UriEncoding.UnescapeEncodedBytes | components/social-share.tsx:21-23 | the escapes written for a run of octets read back as exactly those octets, in order |
| UriEncoding.EncodeAppend | components/social-share.tsx:21-23 | encoding distributes over concatenation: every character is encoded on its own |
| UriEncoding.EncodeIdentity | components/social-share.tsx:21-23 | a string is unchanged by encoding exactly when all its characters are unreserved |
| UriEncoding.Utf8RoundTrip | components/social-share.tsx:21-23 | the first octet of a character's UTF-8 encoding announces its length, and decoding gives the character back |
| UriEncoding.Utf8DecodeExact | components/social-share.tsx:21-23 | the decoder used by `decodeURIComponent` yields `c` from a sequence exactly when that sequence is the UTF-8 encoding of `c` |
| UriEncoding.Utf8DecodeWellFormed | components/social-share.tsx:21-23 | the decoder accepts exactly the sequences that are well-formed by the syntax of section 4 of RFC 3629, so overlong forms, surrogates and values above U+10FFFF are rejected |
| UriEncoding.Utf8WellFormed | components/social-share.tsx:21-23 | every character's UTF-8 encoding is well-formed by that syntax |
| UriEncoding.DecodeEncodePrefix | components/social-share.tsx:21-23 | decoding an encoded string followed by more text yields the string in front of whatever the rest decodes to |
| UriEncoding.DecodeEncode | components/social-share.tsx:21-23 | `decodeURIComponent(encodeURIComponent(s)) == s` for every string of scalar values |
| Analytics.Merge | components/analytics.tsx:58-67 | the sent parameters have the caller's keys plus the three defaults; caller values are kept; a missing category is "engagement", a missing label is the truthy `label` parameter or "", a missing `value` is 0 |
| Analytics.TrackEvent | components/analytics.tsx:58-67 | nothing is sent exactly when `gtag` is missing; otherwise one event under the call's name with the merged parameters |
| Analytics.ContentGeneration | components/analytics.tsx:69-78 | the generation event's full key set and values: the `N/A` difficulty and zero count fallbacks for missing or falsy arguments, and the `type_topic` label |
| Analytics.ContentShare | components/analytics.tsx:80-87 | the share event's key set, category, platform, content type and `platform_type` label |
| Analytics.ContentDownload | components/analytics.tsx:89-96 | the download event's key set, category, content type, file format and label |
| Analytics.ThemeChange | components/analytics.tsx:98-104 | the theme event carries the theme both as its mode and as its label |
| Analytics.HistoryView | components/analytics.tsx:106-111 | the history event has only the three default keys, with the navigation category and the `history_modal` label |
| Analytics.MenuInteraction | components/analytics.tsx:113-119 | the menu event carries the action both as its action and as its label |
| Analytics.GoogleAnalytics | components/analytics.tsx:20-39 | with a missing or placeholder ID neither the script nor the config call appears; otherwise both do, and the config names the ID, the title and the location `path + "?" + query`. Under the app router the search-params object is always present, so a page without a query gets `path + "?"`; the bare path appears only when the hook returns `null` |
| Analytics.TrackingId | components/analytics.tsx:14 | the configured ID is used when it is non-empty, and the placeholder otherwise, so the ID is never empty |
| Analytics.EnabledIffConfigured | components/analytics.tsx:14-21 | analytics is live exactly when a non-empty ID other than the placeholder is configured |
| History.Save | app/page.tsx:74-83 | the new list has `min(n + 1, 10)` entries, the new item first, followed by the front of the old list |
| History.SaveAllKeepsNewest | app/page.tsx:80 | after any sequence of saves the list is the saves in reverse order followed by the older list, cut to ten entries |
| History.SaveAllBounded | app/page.tsx:80 | after at least one save the list never holds more than ten entries |
| History.SaveAllForgetsOld | app/page.tsx:80 | after ten or more saves the list is exactly the last ten saved items, newest first |
| Prompt.Build | app/page.tsx:102-109 | the prompt starts with the quiz lead exactly for `quiz`, with the notes lead exactly for `notes`, and with the assignment lead for every other type value |
| Prompt.QuizPrompt | app/page.tsx:104 | a quiz prompt starts with "Generate " |
| Prompt.QuizPromptCount | app/page.tsx:104 | `parseInt` of the quiz prompt after its leading word yields the question count |
| Prompt.QuizPromptTopic | app/page.tsx:104 | the quiz prompt is its head, ending in ` multiple choice questions on "`, then the topic verbatim, then `" with answers. Difficulty: `, then the difficulty, each at a known position |
| Prompt.QuizPromptCarriesOptions | app/page.tsx:103-104 | a quiz prompt carries the count (read back by `parseInt`), the quoted topic and the trailing difficulty |
| Prompt.TopicRecoverable | app/page.tsx:105-108 | a notes or assignment prompt is exactly its fixed lead, the topic verbatim, and its fixed tail (`" in bullet points.` or `" with instructions and 5+ questions.`) |
| Prompt.BuildInjective | app/page.tsx:102-109 | for a fixed type and count, equal notes or assignment prompts come from equal topics; equal quiz prompts come from equal topics and equal difficulties provided the two topics have the same length |
| Prompt.QuizPromptAmbiguous | app/page.tsx:104 | without that length condition the quiz prompt does not determine its options: a topic containing the text after the closing quote gives the same prompt as a shorter topic with a longer difficulty |
| Generation.NestedText | app/page.tsx:126 | the optional chain yields the first part's text of the first candidate exactly when every step of that path is present, and `undefined` otherwise |
| Generation.ResultText | app/page.tsx:126 | the shown text is never empty; it is the nested text when that text is non-empty, and otherwise the placeholder |
| Generation.ErrorText | app/page.tsx:138 | the error output is "Error: " followed by the error's message, or by "Unknown error" for a non-Error value |
| Generation.Start | app/page.tsx:85-123 | a blank topic leaves the state unchanged and only toasts; otherwise the loading flag is raised, the start event is the only analytics call, and exactly one request goes out, carrying the built prompt |
| Generation.Finish | app/page.tsx:125-153 | the loading flag is always cleared and no request is made. A response shows its text, saves it at the head of the history, stores the list once, reports exactly one analytics call, `trackContentGeneration` with the type, topic, difficulty and count captured when the handler was invoked, and toasts success. A thrown value shows the error text, keeps the history, stores nothing, tracks one error event with the message, type and topic, and toasts failure |
| Generation.Generate | app/page.tsx:85-153 | the whole handler never changes the form; a blank topic leaves state and effects as the guard left them, and any other topic ends with the loading flag lowered |
| Generation.Mount | app/page.tsx:63-72 | a stored list replaces the history and its absence leaves it alone; in both cases exactly one page view is tracked |
| Generation.BlankTopicIsRejected | app/page.tsx:86-93 | a blank topic changes nothing, sends no request, tracks nothing, and raises exactly one "Topic Required" toast |
| Generation.NonBlankTopicIsSent | app/page.tsx:95-123 | a topic with any non-white-space character always produces exactly one request with the prompt built from the current form values |
| Generation.ResponseIsSaved | app/page.tsx:95-136 | a response of any status shows its text or the placeholder, saves exactly that text under the built prompt at the head of a bounded history, stores once, reports exactly the start event and then `trackContentGeneration` with the form's type, topic, difficulty and count, and raises one success toast |
| Generation.ErrorIsReported | app/page.tsx:137-150 | a thrown value shows the error text, leaves history and storage alone, and reports exactly one error event whose `content_type` is the requested type |
| Generation.LoadingBracketsTheRequest | app/page.tsx:95-153 | the generate button is disabled between the start of the request and its completion on either path |
| Generation.ClickWhileLoadingIsIgnored | app/page.tsx:454 | while a request is in flight the button is disabled (`GenerateDisabled`), so another click changes nothing and sends no second request |
| Generation.HistoryStaysBounded | app/page.tsx:80 | a history of at most ten entries stays within ten entries across a generation, whatever the outcome |
| Page.CountFromInput | app/page.tsx:448 | the count is never zero: `NaN` and zero fall back to 5, any other parsed value is taken as it is |
| Page.CountInputRoundTrip | app/page.tsx:448 | a non-zero count typed in decimal is read back unchanged |
| Page.ToggleTheme | app/page.tsx:195 | the new theme is light exactly when the current one is dark, and dark otherwise |
| Page.HandleThemeChange | app/page.tsx:194-198 | the toggled theme is applied first and reported under the same name |
| Page.ThemeToggleTwice | app/page.tsx:195 | two toggles restore a light or dark theme; a system or unresolved theme becomes dark |
| Page.HandleMenuClick | app/page.tsx:200-203 | the menu flag flips and one `menu_toggle` interaction is reported, with no toast or storage |
| Page.MenuClickTwice | app/page.tsx:201 | two clicks restore the menu state |
| Page.HandleHistoryClick | app/page.tsx:205-207 | opening the history has exactly one effect, the history view: no toast, no store and no request |
| Page.HistoryPreview | app/page.tsx:325 | the preview is a prefix of the result of at most 200 characters followed by "...", which appears even for short results |
| Page.ShareText | app/page.tsx:490 | the share text is the fixed introduction followed by the quoted topic, or by "AI-powered learning" when the topic is empty |
| Page.ShareTextInjective | app/page.tsx:490 | different topics give different share texts |
| Page.CopyToClipboard | app/page.tsx:156-174 | the output is offered to the clipboard; success reports exactly one analytics call, the copy event for the selected type, and toasts "Copied"; failure reports nothing and toasts "Copy Failed" |
| Page.CopiedCall | app/page.tsx:159-162 | the copy event is `content_copied` with the `content_interaction` category and the selected content type, with exactly the keys category, label, value and type, the default label `""` and value 0 |
| Page.ShareDialogSharesLocation | app/page.tsx:488-491 | the result dialog passes no `url`, so its Facebook and LinkedIn links decode to the page's location and its WhatsApp message to the share text, a space and that location |
| Page.Download | app/page.tsx:176-192 | the output is saved as `ai_output.txt`, one `txt` download is reported, and one toast is raised |
| SocialShare.ShareUrl | components/social-share.tsx:20 | a non-empty `url` prop is shared as it is; otherwise the current location, or "" where no window exists |
| SocialShare.LinksOf | components/social-share.tsx:15-30 | the rendered Facebook and LinkedIn links decode to the shared link, and the WhatsApp link to the text (or its default), a space and the shared link |
| SocialShare.BuildLinks | components/social-share.tsx:25-30 | every link starts with its platform's base, and the Facebook and LinkedIn links end with exactly the encoded share link |
| SocialShare.TwitterFields | components/social-share.tsx:26 | the tweet query splits on `&` into exactly the text field, the url field and the hashtags |
| SocialShare.TwitterCarriesTextAndUrl | components/social-share.tsx:26 | the Twitter link has exactly three query fields, and the text and url fields decode back to the shared text and link |
| SocialShare.FacebookLinkedInCarryOnlyUrl | components/social-share.tsx:27-28 | the Facebook and LinkedIn links decode back to the share link and do not depend on the text |
| SocialShare.EncodeMessage | components/social-share.tsx:29 | the encoded text, `%20` and the encoded link together form the encoding of "text link" |
| SocialShare.WhatsAppCarriesTextThenUrl | components/social-share.tsx:29 | the WhatsApp message is the text and the link joined by one space, encoded as a whole, and it decodes back |
| SocialShare.ShareLabel | components/social-share.tsx:37 | the toast names the platform key with its own first letter upper-cased and the rest unchanged |
| SocialShare.ShareLabels | components/social-share.tsx:37 | the four toasts read "Content shared on Twitter / Facebook / Linkedin / Whatsapp" (only the first letter raised) |
| SocialShare.HandleShare | components/social-share.tsx:32-39 | the platform's link opens first, in a 600x400 pop-up; then one `app_share` share event for the platform and one "Shared!" toast follow |
| SocialShare.CopyLink | components/social-share.tsx:41-56 | the share link is offered to the clipboard; success reports one `copy_link` share and toasts "Link Copied"; failure reports nothing and raises a destructive toast |

## Left out

- **Network call.** The network request itself, the JSON encoding of the request body and the
  JSON decoding of the response are not modelled. The provider credential is left out as
  well. The decoded body, or the thrown value, is an input to `Generation.Finish`. A `null`
  body makes the read of `data.candidates` throw and is a `Threw` outcome. A number, string or
  boolean body has no `candidates` and is a `Responded` outcome whose `candidates` is absent.
- **Stored history.** Reading and parsing the stored history at mount is not modelled:
  `Generation.Mount` takes the parsed list, or `None` when storage holds nothing. The JSON
  serialisation of the written list is not modelled either: a storage write is the
  `Store(key, list)` effect. The model assumes storage writes succeed; an exception from
  `localStorage.setItem` inside the `try` is not modelled.
- **Clock.** `new Date().toLocaleString()` is a string parameter.
- **Browser capabilities.** Clipboard, download, `window.open` and theme application are
  modelled as effects. Whether the browser accepts a clipboard write is a boolean parameter.
- **Theme state.** The `next-themes` provider and its `system` resolution are not modelled:
  the current theme is an `Option<string>`.
- **Concurrency.** React re-rendering and state batching are not modelled; neither are two
  overlapping generations. Finish takes the state at completion, and the closure's captured
  values, as parameters. A second click while loading is excluded by the disabled button
  (`Generation.GenerateDisabled`); `Generation.Click` models that a disabled button ignores
  clicks.
- **Rendering.** JSX layout, the history dialog's markup, `layout.tsx`, `ClientLayout.tsx`,
  `sitemap.ts` and `robots.ts` are presentation or site configuration and are not modelled.
- **Analytics script.** The inline `gtag('js', …)` bootstrap script string is not modelled.
  The component's config call is modelled as `PageConfig`.
- JsText.IntToString: models JavaScript number formatting only for integers. Exponent notation
  from 1e21 up is not modelled, and neither is the loss of precision above 2^53 in `parseInt`
  results.
- Page.HistoryPreview: counts Unicode scalar values. JavaScript's `slice` counts UTF-16 code
  units, so the two differ for characters outside the Basic Multilingual Plane.
- UriEncoding.Encode: strings are sequences of Unicode scalar values. Lone surrogates, for
  which `encodeURIComponent` throws, cannot occur in the model.
- JsText.Capitalize: upper-cases ASCII letters only; `toUpperCase` maps the whole Unicode
  range. Every platform key is ASCII.
- Analytics.Merge: parameter values are strings and integers only, which is all the
  application passes. JavaScript truthiness of other values is not modelled.

=== FILE: analytics.dfy ===
/** The Google Analytics wrapper: `trackEvent`, which merges the caller's
    parameters over three defaults before handing them to `gtag`, the typed
    helpers built on it, and the tracking-ID guard of the `GoogleAnalytics`
    component. */
module Analytics {
  import opened Wrappers

  /** The parameter values the application passes: strings and (integral) numbers. */
  datatype Value = Str(s: string) | Num(n: int)

  /** JavaScript truthiness of a parameter value. */
  predicate Truthy(v: Value) {
    match v
    case Str(s) => s != ""
    case Num(n) => n != 0
  }

  type Params = map<string, Value>

  /** One call of `trackEvent(name, parameters)`. */
  datatype Call = Call(name: string, params: Params)

  /** What reaches `gtag("event", name, params)`. */
  datatype GtagEvent = GtagEvent(name: string, params: Params)

  /** `x || fallback` on an optional parameter. */
  function OrElse(p: Params, key: string, fallback: Value): Value
  {
    if key in p && Truthy(p[key]) then p[key] else fallback
  }

  /** The three defaults `trackEvent` writes before spreading the caller's parameters. */
  function Defaults(p: Params): Params
  {
    map["event_category" := Str("engagement"),
        "event_label" := OrElse(p, "label", Str("")),
        "value" := OrElse(p, "value", Num(0))]
  }

  /** The parameter object `trackEvent` builds: defaults first, then `...parameters`. */
  function Merge(p: Params): (r: Params)
    ensures r.Keys == p.Keys + {"event_category", "event_label", "value"}
    ensures forall k :: k in p ==> r[k] == p[k]
    ensures "event_category" !in p ==> r["event_category"] == Str("engagement")
    ensures "event_label" !in p ==>
              r["event_label"] == (if "label" in p && Truthy(p["label"]) then p["label"] else Str(""))
    ensures "value" !in p ==> r["value"] == Num(0)
  {
    Defaults(p) + p
  }

  /** `trackEvent(name, parameters)`: nothing is sent unless `gtag` is loaded in
      the window; otherwise one event with the merged parameters. A missing
      `parameters` argument behaves as an empty object. */
  function TrackEvent(c: Call, gtagLoaded: bool): (r: Option<GtagEvent>)
    ensures r.None? <==> !gtagLoaded
    ensures r.Some? ==> r.value.name == c.name && r.value.params == Merge(c.params)
  {
    if gtagLoaded then Some(GtagEvent(c.name, Merge(c.params))) else None
  }

  /** The parameters a call actually sends when `gtag` is present. */
  function Sent(c: Call): Params
  {
    Merge(c.params)
  }

  // ---------------------------------------------------------------------------
  // Typed helpers

  /** `trackContentGeneration(contentType, topic, difficulty?, count?)`. */
  function ContentGeneration(contentType: string, topic: string, difficulty: Option<string>,
                             count: Option<int>): (c: Call)
    ensures c.name == "content_generated"
    ensures Sent(c).Keys == {"event_category", "event_label", "value", "content_type", "topic",
                             "difficulty", "question_count"}
    ensures Sent(c)["event_category"] == Str("content_creation")
    ensures Sent(c)["event_label"] == Str(contentType + "_" + topic)
    ensures Sent(c)["value"] == Num(0)
    ensures Sent(c)["content_type"] == Str(contentType) && Sent(c)["topic"] == Str(topic)
    ensures difficulty.None? || difficulty == Some("") ==> Sent(c)["difficulty"] == Str("N/A")
    ensures difficulty.Some? && difficulty.value != "" ==> Sent(c)["difficulty"] == Str(difficulty.value)
    ensures count.None? || count == Some(0) ==> Sent(c)["question_count"] == Num(0)
    ensures count.Some? && count.value != 0 ==> Sent(c)["question_count"] == Num(count.value)
  {
    var d := if difficulty.Some? && difficulty.value != "" then difficulty.value else "N/A";
    var n := if count.Some? && count.value != 0 then count.value else 0;
    Call("content_generated",
         map["event_category" := Str("content_creation"),
             "content_type" := Str(contentType),
             "topic" := Str(topic),
             "difficulty" := Str(d),
             "question_count" := Num(n),
             "event_label" := Str(contentType + "_" + topic)])
  }

  /** `trackContentShare(platform, contentType)`. */
  function ContentShare(platform: string, contentType: string): (c: Call)
    ensures c.name == "content_shared"
    ensures Sent(c).Keys == {"event_category", "event_label", "value", "platform", "content_type"}
    ensures Sent(c)["event_category"] == Str("social_sharing")
    ensures Sent(c)["event_label"] == Str(platform + "_" + contentType)
    ensures Sent(c)["platform"] == Str(platform) && Sent(c)["content_type"] == Str(contentType)
    ensures Sent(c)["value"] == Num(0)
  {
    Call("content_shared",
         map["event_category" := Str("social_sharing"),
             "platform" := Str(platform),
             "content_type" := Str(contentType),
             "event_label" := Str(platform + "_" + contentType)])
  }

  /** `trackContentDownload(contentType, format)`. */
  function ContentDownload(contentType: string, format: string): (c: Call)
    ensures c.name == "content_downloaded"
    ensures Sent(c).Keys == {"event_category", "event_label", "value", "content_type", "file_format"}
    ensures Sent(c)["event_category"] == Str("content_export")
    ensures Sent(c)["event_label"] == Str(contentType + "_" + format)
    ensures Sent(c)["content_type"] == Str(contentType) && Sent(c)["file_format"] == Str(format)
    ensures Sent(c)["value"] == Num(0)
  {
    Call("content_downloaded",
         map["event_category" := Str("content_export"),
             "content_type" := Str(contentType),
             "file_format" := Str(format),
             "event_label" := Str(contentType + "_" + format)])
  }

  /** `trackThemeChange(theme)`. */
  function ThemeChange(theme: string): (c: Call)
    ensures c.name == "theme_changed"
    ensures Sent(c).Keys == {"event_category", "event_label", "value", "theme_mode"}
    ensures Sent(c)["event_category"] == Str("user_preference")
    ensures Sent(c)["theme_mode"] == Sent(c)["event_label"] == Str(theme)
    ensures Sent(c)["value"] == Num(0)
  {
    Call("theme_changed",
         map["event_category" := Str("user_preference"),
             "theme_mode" := Str(theme),
             "event_label" := Str(theme)])
  }

  /** `trackHistoryView()`. */
  function HistoryView(): (c: Call)
    ensures c.name == "history_viewed"
    ensures Sent(c).Keys == {"event_category", "event_label", "value"}
    ensures Sent(c)["event_category"] == Str("navigation")
    ensures Sent(c)["event_label"] == Str("history_modal")
    ensures Sent(c)["value"] == Num(0)
  {
    Call("history_viewed",
         map["event_category" := Str("navigation"),
             "event_label" := Str("history_modal")])
  }

  /** `trackMenuInteraction(action)`. */
  function MenuInteraction(action: string): (c: Call)
    ensures c.name == "menu_interaction"
    ensures Sent(c).Keys == {"event_category", "event_label", "value", "menu_action"}
    ensures Sent(c)["event_category"] == Str("navigation")
    ensures Sent(c)["menu_action"] == Sent(c)["event_label"] == Str(action)
    ensures Sent(c)["value"] == Num(0)
  {
    Call("menu_interaction",
         map["event_category" := Str("navigation"),
             "menu_action" := Str(action),
             "event_label" := Str(action)])
  }

  // ---------------------------------------------------------------------------
  // The GoogleAnalytics component

  /** The measurement ID shipped in the source as a stand-in for a real one. */
  const PlaceholderId: string := "G-XXXXXXXXXX"

  /** `process.env.NEXT_PUBLIC_GA_ID || "G-XXXXXXXXXX"`. */
  function TrackingId(env: Option<string>): (id: string)
    ensures id != ""
    ensures env.Some? && env.value != "" ==> id == env.value
    ensures env.None? || env.value == "" ==> id == PlaceholderId
  {
    if env.Some? && env.value != "" then env.value else PlaceholderId
  }

  /** The guard `!GA_TRACKING_ID || GA_TRACKING_ID === "G-XXXXXXXXXX"`, negated. */
  predicate Enabled(id: string) {
    id != "" && id != PlaceholderId
  }

  /** `gtag("config", id, { page_location, page_title })`. */
  datatype PageConfig = PageConfig(targetId: string, pageLocation: string, pageTitle: string)

  /** What the component contributes: the loader script URL and the page-view
      config call issued by its effect. */
  datatype Rendered = Rendered(scriptSrc: Option<string>, config: Option<PageConfig>)

  /** The `GoogleAnalytics` component for one route: nothing at all for a missing
      or placeholder ID; otherwise the loader script and a config call whose page
      location is the path followed by `?` and the query when search parameters
      exist. Under the app router `useSearchParams()` always returns an object,
      which is truthy even when empty, so `search` is `Some("")` for a page
      without a query; `None` is the `null` the hook returns elsewhere. */
  function GoogleAnalytics(id: string, pathname: string, search: Option<string>,
                           documentTitle: string): (r: Rendered)
    ensures r.scriptSrc.None? <==> !Enabled(id)
    ensures r.config.None? <==> !Enabled(id)
    ensures r.config.Some? ==> r.config.value.targetId == id
                               && r.config.value.pageTitle == documentTitle
                               && pathname <= r.config.value.pageLocation
    ensures r.config.Some? && search.Some? ==> r.config.value.pageLocation == pathname + "?" + search.value
    ensures r.config.Some? && search.None? ==> r.config.value.pageLocation == pathname
  {
    if !Enabled(id) then Rendered(None, None)
    else
      var url := pathname + (match search case Some(q) => "?" + q case None => "");
      Rendered(Some("https://www.googletagmanager.com/gtag/js?id=" + id),
               Some(PageConfig(id, url, documentTitle)))
  }

  // ---------------------------------------------------------------------------
  // Properties

  /** Analytics is live exactly when a real measurement ID is configured. */
  lemma EnabledIffConfigured(env: Option<string>)
    ensures Enabled(TrackingId(env)) <==> env.Some? && env.value != "" && env.value != PlaceholderId
  {
  }
}

=== FILE: effects.dfy ===
/** The observable side effects of the page's handlers, recorded as values in
    the order the handlers issue them: toasts, analytics calls, the provider
    request, storage writes and browser capabilities. */
module Effects {
  import Analytics
  import History

  /** A `toast({ title, description, variant })`; `destructive` is the error variant. */
  datatype Notice = Notice(title: string, description: string, destructive: bool)

  datatype Effect =
    | Toast(notice: Notice)
    | Track(call: Analytics.Call)
    | Fetch(prompt: string)
    | Store(key: string, items: seq<History.HistoryItem>)
    | ApplyTheme(theme: string)
    | WriteClipboard(text: string)
    | DownloadFile(fileName: string, contents: string)
    | OpenWindow(url: string, target: string, features: string)

  /** The analytics calls named `name`, in order. */
  function Tracked(effects: seq<Effect>, name: string): (r: seq<Analytics.Call>)
    ensures |r| <= |effects|
    ensures forall i :: 0 <= i < |r| ==> r[i].name == name
  {
    if |effects| == 0 then []
    else
      var rest := Tracked(effects[1..], name);
      if effects[0].Track? && effects[0].call.name == name then [effects[0].call] + rest else rest
  }

  /** All analytics calls, in order. */
  function Tracks(effects: seq<Effect>): (r: seq<Analytics.Call>)
    ensures |r| <= |effects|
  {
    if |effects| == 0 then []
    else (if effects[0].Track? then [effects[0].call] else []) + Tracks(effects[1..])
  }

  function Toasts(effects: seq<Effect>): (r: seq<Notice>)
    ensures |r| <= |effects|
  {
    if |effects| == 0 then []
    else (if effects[0].Toast? then [effects[0].notice] else []) + Toasts(effects[1..])
  }

  /** The lists written to browser storage, in order. */
  function Stores(effects: seq<Effect>): (r: seq<(string, seq<History.HistoryItem>)>)
    ensures |r| <= |effects|
  {
    if |effects| == 0 then []
    else (if effects[0].Store? then [(effects[0].key, effects[0].items)] else []) + Stores(effects[1..])
  }

  /** The prompts sent to the provider, in order. */
  function Fetches(effects: seq<Effect>): (r: seq<string>)
    ensures |r| <= |effects|
  {
    if |effects| == 0 then []
    else (if effects[0].Fetch? then [effects[0].prompt] else []) + Fetches(effects[1..])
  }

  // Each view of an effect list is taken element by element, so it splits
  // over concatenation.

  lemma {:induction false} TrackedDistributes(a: seq<Effect>, b: seq<Effect>, name: string)
    ensures Tracked(a + b, name) == Tracked(a, name) + Tracked(b, name)
  {
    if |a| == 0 {
      assert a + b == b;
    } else {
      assert (a + b)[0] == a[0];
      assert (a + b)[1..] == a[1..] + b;
      TrackedDistributes(a[1..], b, name);
    }
  }

  lemma {:induction false} TracksDistribute(a: seq<Effect>, b: seq<Effect>)
    ensures Tracks(a + b) == Tracks(a) + Tracks(b)
  {
    if |a| == 0 {
      assert a + b == b;
    } else {
      assert (a + b)[0] == a[0];
      assert (a + b)[1..] == a[1..] + b;
      TracksDistribute(a[1..], b);
    }
  }

  lemma {:induction false} ToastsDistribute(a: seq<Effect>, b: seq<Effect>)
    ensures Toasts(a + b) == Toasts(a) + Toasts(b)
  {
    if |a| == 0 {
      assert a + b == b;
    } else {
      assert (a + b)[0] == a[0];
      assert (a + b)[1..] == a[1..] + b;
      ToastsDistribute(a[1..], b);
    }
  }

  lemma {:induction false} StoresDistribute(a: seq<Effect>, b: seq<Effect>)
    ensures Stores(a + b) == Stores(a) + Stores(b)
  {
    if |a| == 0 {
      assert a + b == b;
    } else {
      assert (a + b)[0] == a[0];
      assert (a + b)[1..] == a[1..] + b;
      StoresDistribute(a[1..], b);
    }
  }

  lemma {:induction false} FetchesDistribute(a: seq<Effect>, b: seq<Effect>)
    ensures Fetches(a + b) == Fetches(a) + Fetches(b)
  {
    if |a| == 0 {
      assert a + b == b;
    } else {
      assert (a + b)[0] == a[0];
      assert (a + b)[1..] == a[1..] + b;
      FetchesDistribute(a[1..], b);
    }
  }

  lemma ViewsDistribute(a: seq<Effect>, b: seq<Effect>, name: string)
    ensures Tracked(a + b, name) == Tracked(a, name) + Tracked(b, name)
    ensures Tracks(a + b) == Tracks(a) + Tracks(b)
    ensures Toasts(a + b) == Toasts(a) + Toasts(b)
    ensures Stores(a + b) == Stores(a) + Stores(b)
    ensures Fetches(a + b) == Fetches(a) + Fetches(b)
  {
    TrackedDistributes(a, b, name);
    TracksDistribute(a, b);
    ToastsDistribute(a, b);
    StoresDistribute(a, b);
    FetchesDistribute(a, b);
  }
}

=== FILE: generation.dfy ===
/** `generateContent` of the home page as a state step. The provider round trip
    is not performed here: its outcome (the decoded response body, or the value
    thrown by `fetch`/`response.json()`) is an input, and every side effect is
    returned as an `Effect` value. */
module Generation {
  import opened Wrappers
  import opened JsText
  import Analytics
  import opened History
  import Prompt
  import opened Effects

  /** The page state `generateContent` reads and writes (`type` is `contentType` here). */
  datatype State = State(contentType: string, topic: string, difficulty: string, count: int,
                         output: string, isLoading: bool, history: seq<HistoryItem>)

  // ---------------------------------------------------------------------------
  // The provider's decoded response

  datatype Part = Part(text: Option<string>)
  datatype Content = Content(parts: Option<seq<Part>>)
  datatype Candidate = Candidate(content: Option<Content>)
  /** The decoded JSON body; only the path the page reads is represented. The HTTP
      status is not part of it because the page never looks at it. */
  datatype Body = Body(candidates: Option<seq<Candidate>>)

  /** A value thrown inside the `try`: an `Error` object with its message, or anything else. */
  datatype Thrown = ErrorObject(message: string) | NonError

  datatype Outcome = Responded(body: Body) | Threw(thrown: Thrown)

  const Placeholder: string := "No result generated"

  /** `data.candidates?.[0]?.content?.parts?.[0]?.text`: the text of the first
      part of the first candidate, when every step of that path is present. */
  function NestedText(b: Body): (r: Option<string>)
    ensures r.Some? ==> && b.candidates.Some? && |b.candidates.value| > 0
                        && b.candidates.value[0].content.Some?
                        && b.candidates.value[0].content.value.parts.Some?
                        && |b.candidates.value[0].content.value.parts.value| > 0
                        && b.candidates.value[0].content.value.parts.value[0].text == r
    ensures && b.candidates.Some? && |b.candidates.value| > 0
            && b.candidates.value[0].content.Some?
            && b.candidates.value[0].content.value.parts.Some?
            && |b.candidates.value[0].content.value.parts.value| > 0
            ==> r == b.candidates.value[0].content.value.parts.value[0].text
  {
    match b.candidates
    case Some(cs) =>
      if |cs| == 0 then None
      else (match cs[0].content
            case Some(Content(Some(ps))) => if |ps| == 0 then None else ps[0].text
            case _ => None)
    case None => None
  }

  /** `NestedText(b) || "No result generated"`: the text the page shows. */
  function ResultText(b: Body): (r: string)
    ensures r != ""
    ensures r != Placeholder ==> NestedText(b) == Some(r)
    ensures NestedText(b).Some? && NestedText(b).value != "" ==> r == NestedText(b).value
  {
    match NestedText(b)
    case Some(t) => if t != "" then t else Placeholder
    case None => Placeholder
  }

  /** `Error: ${error instanceof Error ? error.message : "Unknown error"}`. */
  function ErrorText(t: Thrown): (r: string)
    ensures |r| >= 7 && r[..7] == "Error: "
    ensures t.ErrorObject? ==> r[7..] == t.message
    ensures t.NonError? ==> r[7..] == "Unknown error"
  {
    "Error: " + (match t case ErrorObject(m) => m case NonError => "Unknown error")
  }

  // ---------------------------------------------------------------------------
  // Notices and analytics calls

  const TopicRequired: Notice := Notice("Topic Required", "Please enter a topic before generating.", true)
  const Generated: Notice := Notice("Content Generated", "Your AI content has been generated successfully!", false)
  const Failed: Notice := Notice("Generation Failed", "There was an error generating your content.", true)

  function StartedCall(contentType: string, topic: string): Analytics.Call
  {
    Analytics.Call("content_generation_started",
                   map["event_category" := Analytics.Str("content_creation"),
                       "content_type" := Analytics.Str(contentType),
                       "topic" := Analytics.Str(topic)])
  }

  function ErrorCall(message: string, contentType: string, topic: string): Analytics.Call
  {
    Analytics.Call("content_generation_error",
                   map["event_category" := Analytics.Str("errors"),
                       "error_message" := Analytics.Str(message),
                       "content_type" := Analytics.Str(contentType),
                       "topic" := Analytics.Str(topic)])
  }

  // ---------------------------------------------------------------------------
  // The two halves of generateContent

  /** What the handler closure captured when it was invoked: the form values and
      the history as of that render, plus the prompt it built. */
  datatype Pending = Pending(contentType: string, topic: string, difficulty: string, count: int,
                             prompt: string, history: seq<HistoryItem>)

  datatype Started = Started(state: State, pending: Option<Pending>, effects: seq<Effect>)

  datatype Step = Step(state: State, effects: seq<Effect>)

  /** Everything up to the `await fetch(...)`: the blank-topic guard, then the
      loading flag, the start event, the prompt and the request. */
  function Start(s: State): (r: Started)
    ensures r.pending.None? <==> IsBlank(s.topic)
    ensures r.pending.None? ==> r.state == s && r.effects == [Toast(TopicRequired)]
    ensures r.pending.Some? ==>
              && r.state == s.(isLoading := true)
              && r.pending.value.contentType == s.contentType && r.pending.value.topic == s.topic
              && r.pending.value.difficulty == s.difficulty && r.pending.value.count == s.count
              && r.pending.value.prompt == Prompt.Build(s.contentType, s.topic, s.difficulty, s.count)
              && r.pending.value.history == s.history
              && Fetches(r.effects) == [r.pending.value.prompt]
              && Tracks(r.effects) == [StartedCall(s.contentType, s.topic)]
              && (forall name :: name != StartedCall(s.contentType, s.topic).name ==>
                                 Tracked(r.effects, name) == [])
              && Toasts(r.effects) == []
              && Stores(r.effects) == []
  {
    if IsBlank(s.topic) then Started(s, None, [Toast(TopicRequired)])
    else
      var prompt := Prompt.Build(s.contentType, s.topic, s.difficulty, s.count);
      var call := StartedCall(s.contentType, s.topic);
      StartEffects(call, prompt);
      Started(s.(isLoading := true),
              Some(Pending(s.contentType, s.topic, s.difficulty, s.count, prompt, s.history)),
              [Track(call), Fetch(prompt)])
  }

  /** The start half's effects: the start event, then the request. */
  lemma StartEffects(call: Analytics.Call, prompt: string)
    ensures var effects := [Track(call), Fetch(prompt)];
            && Tracks(effects) == [call] && Fetches(effects) == [prompt]
            && Toasts(effects) == [] && Stores(effects) == []
            && forall name :: name != call.name ==> Tracked(effects, name) == []
  {
    var effects := [Track(call), Fetch(prompt)];
    assert effects[1..] == [Fetch(prompt)];
    assert effects[1..][1..] == [];
  }

  /** Everything after the `await`: on a response, show and save its text; on a
      thrown value, show the error text; in both cases clear the loading flag.
      `s` is the state at completion, `time` the display timestamp. */
  function Finish(s: State, p: Pending, outcome: Outcome, time: string): (r: Step)
    ensures !r.state.isLoading
    ensures r.state.contentType == s.contentType && r.state.topic == s.topic
    ensures r.state.difficulty == s.difficulty && r.state.count == s.count
    ensures Fetches(r.effects) == []
    ensures outcome.Responded? ==>
              && r.state.output == ResultText(outcome.body)
              && r.state.history == Save(p.history, HistoryItem(p.prompt, r.state.output, time))
              && Stores(r.effects) == [(StorageKey, r.state.history)]
              && Tracks(r.effects)
                 == [Analytics.ContentGeneration(p.contentType, p.topic, Some(p.difficulty), Some(p.count))]
              && |Tracked(r.effects, "content_generated")| == 1
              && Tracked(r.effects, "content_generation_error") == []
              && Toasts(r.effects) == [Generated]
    ensures outcome.Threw? ==>
              && r.state.output == ErrorText(outcome.thrown)
              && r.state.history == s.history
              && Stores(r.effects) == []
              && Tracks(r.effects) == [ErrorCall(r.state.output, p.contentType, p.topic)]
              && Tracked(r.effects, "content_generated") == []
              && |Tracked(r.effects, "content_generation_error")| == 1
              && Tracked(r.effects, "content_generation_error")[0].params
                 == map["event_category" := Analytics.Str("errors"),
                        "error_message" := Analytics.Str(r.state.output),
                        "content_type" := Analytics.Str(p.contentType),
                        "topic" := Analytics.Str(p.topic)]
              && Toasts(r.effects) == [Failed]
  {
    match outcome
    case Responded(body) =>
      var result := ResultText(body);
      var history := Save(p.history, HistoryItem(p.prompt, result, time));
      var track := Track(Analytics.ContentGeneration(p.contentType, p.topic, Some(p.difficulty), Some(p.count)));
      var effects := [Store(StorageKey, history), track, Toast(Generated)];
      SavedEffects(history, track.call);
      Step(s.(output := result, history := history, isLoading := false), effects)
    case Threw(thrown) =>
      var message := ErrorText(thrown);
      var call := ErrorCall(message, p.contentType, p.topic);
      var effects := [Track(call), Toast(Failed)];
      FailedEffects(call);
      Step(s.(output := message, isLoading := false), effects)
  }

  /** The success path's effects: the storage write, the generation event, then the toast. */
  lemma SavedEffects(history: seq<HistoryItem>, call: Analytics.Call)
    requires call.name == "content_generated"
    ensures var effects := [Store(StorageKey, history), Track(call), Toast(Generated)];
            && Stores(effects) == [(StorageKey, history)] && Tracks(effects) == [call]
            && Toasts(effects) == [Generated] && Fetches(effects) == []
            && Tracked(effects, "content_generated") == [call]
            && Tracked(effects, "content_generation_error") == []
  {
    var last := [Toast(Generated)];
    var tail := [Track(call), Toast(Generated)];
    var effects := [Store(StorageKey, history), Track(call), Toast(Generated)];
    assert last[1..] == [] && tail[1..] == last && effects[1..] == tail;
    assert Tracks(last) == [] && Stores(last) == [] && Toasts(last) == [Generated] && Fetches(last) == [];
    assert Tracked(last, "content_generated") == [] && Tracked(last, "content_generation_error") == [];
  }

  /** The error path's effects: the error event, then the toast. */
  lemma FailedEffects(call: Analytics.Call)
    requires call.name == "content_generation_error"
    ensures var effects := [Track(call), Toast(Failed)];
            && Stores(effects) == [] && Tracks(effects) == [call]
            && Toasts(effects) == [Failed] && Fetches(effects) == []
            && Tracked(effects, "content_generated") == []
            && Tracked(effects, "content_generation_error") == [call]
  {
    var effects := [Track(call), Toast(Failed)];
    assert effects[1..] == [Toast(Failed)];
    assert effects[1..][1..] == [];
  }

  /** `generateContent()` run to completion with the given provider outcome. The
      form is never changed; a blank topic leaves everything as it was, and any
      other topic ends with the loading flag lowered. */
  function Generate(s: State, outcome: Outcome, time: string): (r: Step)
    ensures r.state.contentType == s.contentType && r.state.topic == s.topic
    ensures r.state.difficulty == s.difficulty && r.state.count == s.count
    ensures IsBlank(s.topic) ==> r == Step(s, [Toast(TopicRequired)])
    ensures !IsBlank(s.topic) ==> !r.state.isLoading
  {
    var started := Start(s);
    match started.pending
    case None => Step(started.state, started.effects)
    case Some(p) =>
      var finished := Finish(started.state, p, outcome, time);
      Step(finished.state, started.effects + finished.effects)
  }

  /** The generate button's `disabled={isLoading}`. */
  predicate GenerateDisabled(s: State) {
    s.isLoading
  }

  /** A click on the generate button: the browser drops clicks on a disabled
      button, and otherwise `generateContent` runs. */
  function Click(s: State, outcome: Outcome, time: string): Step
  {
    if GenerateDisabled(s) then Step(s, []) else Generate(s, outcome, time)
  }

  /** The mount effect: the stored list (already parsed) replaces the history
      when storage holds a non-empty value, and a page view is tracked. */
  function Mount(s: State, stored: Option<seq<HistoryItem>>): (r: Step)
    ensures stored.Some? ==> r.state == s.(history := stored.value)
    ensures stored.None? ==> r.state == s
    ensures Tracks(r.effects) == [PageViewCall] && Stores(r.effects) == [] && Toasts(r.effects) == []
  {
    var state := match stored case Some(h) => s.(history := h) case None => s;
    Step(state, [Track(PageViewCall)])
  }

  const PageViewCall: Analytics.Call :=
    Analytics.Call("page_view", map["event_category" := Analytics.Str("navigation"),
                                    "page_title" := Analytics.Str("QuizSolver App Home")])

  // ---------------------------------------------------------------------------
  // Properties of the whole step

  /** A blank topic changes nothing and only raises the "Topic Required" toast:
      no request, no analytics event, no loading flag. */
  lemma BlankTopicIsRejected(s: State, outcome: Outcome, time: string)
    requires IsBlank(s.topic)
    ensures Generate(s, outcome, time) == Step(s, [Toast(TopicRequired)])
    ensures Fetches(Generate(s, outcome, time).effects) == []
    ensures Tracks(Generate(s, outcome, time).effects) == []
  {
  }

  /** A topic with any non-white-space character always reaches the provider,
      with the prompt built from the current form values. */
  lemma NonBlankTopicIsSent(s: State, outcome: Outcome, time: string)
    requires !IsBlank(s.topic)
    ensures Fetches(Generate(s, outcome, time).effects)
            == [Prompt.Build(s.contentType, s.topic, s.difficulty, s.count)]
    ensures !Generate(s, outcome, time).state.isLoading
  {
    var started := Start(s);
    var finished := Finish(started.state, started.pending.value, outcome, time);
    FetchesDistribute(started.effects, finished.effects);
  }

  /** Generating with a usable topic is the two halves run one after the other. */
  lemma GenerateSplits(s: State, outcome: Outcome, time: string)
    requires !IsBlank(s.topic)
    ensures var started := Start(s);
            Generate(s, outcome, time)
            == Step(Finish(started.state, started.pending.value, outcome, time).state,
                    started.effects + Finish(started.state, started.pending.value, outcome, time).effects)
  {
  }

  /** The start half adds no storage write, no toast and only the start event
      to what the finish half issues. */
  lemma GenerateViews(s: State, outcome: Outcome, time: string, name: string)
    requires !IsBlank(s.topic)
    requires name != StartedCall(s.contentType, s.topic).name
    ensures var started := Start(s);
            var finished := Finish(started.state, started.pending.value, outcome, time);
            && Stores(Generate(s, outcome, time).effects) == Stores(finished.effects)
            && Toasts(Generate(s, outcome, time).effects) == Toasts(finished.effects)
            && Tracked(Generate(s, outcome, time).effects, name) == Tracked(finished.effects, name)
  {
    var started := Start(s);
    var finished := Finish(started.state, started.pending.value, outcome, time);
    GenerateSplits(s, outcome, time);
    ViewsDistribute(started.effects, finished.effects, name);
  }

  /** The analytics calls of the whole step: the start event, then the finish half's. */
  lemma GenerateTracks(s: State, outcome: Outcome, time: string)
    requires !IsBlank(s.topic)
    ensures var started := Start(s);
            var finished := Finish(started.state, started.pending.value, outcome, time);
            Tracks(Generate(s, outcome, time).effects) == [StartedCall(s.contentType, s.topic)] + Tracks(finished.effects)
  {
    var started := Start(s);
    var finished := Finish(started.state, started.pending.value, outcome, time);
    GenerateSplits(s, outcome, time);
    TracksDistribute(started.effects, finished.effects);
  }

  /** A response (whatever its HTTP status) shows its text or the placeholder,
      saves exactly that text under the built prompt at the head of the history,
      writes the new list to storage once, and reports one generation and one
      success toast. */
  lemma ResponseIsSaved(s: State, body: Body, time: string)
    requires !IsBlank(s.topic)
    ensures var r := Generate(s, Responded(body), time);
            var prompt := Prompt.Build(s.contentType, s.topic, s.difficulty, s.count);
            && r.state.output == ResultText(body)
            && r.state.history[0] == HistoryItem(prompt, ResultText(body), time)
            && r.state.history[1..] == s.history[..|r.state.history| - 1]
            && |r.state.history| == Min(|s.history| + 1, Capacity)
            && Stores(r.effects) == [(StorageKey, r.state.history)]
            && Tracks(r.effects)
               == [StartedCall(s.contentType, s.topic),
                   Analytics.ContentGeneration(s.contentType, s.topic, Some(s.difficulty), Some(s.count))]
            && |Tracked(r.effects, "content_generated")| == 1
            && Tracked(r.effects, "content_generation_error") == []
            && Toasts(r.effects) == [Generated]
            && !r.state.isLoading
  {
    ResponseState(s, body, time);
    ResponseEffects(s, body, time);
    ResponseTracks(s, body, time);
  }

  lemma ResponseState(s: State, body: Body, time: string)
    requires !IsBlank(s.topic)
    ensures var r := Generate(s, Responded(body), time);
            && r.state.output == ResultText(body)
            && r.state.history == Save(s.history, HistoryItem(Prompt.Build(s.contentType, s.topic, s.difficulty, s.count),
                                                              ResultText(body), time))
            && !r.state.isLoading
  {
    GenerateSplits(s, Responded(body), time);
  }

  lemma ResponseEffects(s: State, body: Body, time: string)
    requires !IsBlank(s.topic)
    ensures var r := Generate(s, Responded(body), time);
            && Stores(r.effects) == [(StorageKey, r.state.history)]
            && |Tracked(r.effects, "content_generated")| == 1
            && Tracked(r.effects, "content_generation_error") == []
            && Toasts(r.effects) == [Generated]
  {
    GenerateSplits(s, Responded(body), time);
    GenerateViews(s, Responded(body), time, "content_generated");
    GenerateViews(s, Responded(body), time, "content_generation_error");
  }

  lemma ResponseTracks(s: State, body: Body, time: string)
    requires !IsBlank(s.topic)
    ensures Tracks(Generate(s, Responded(body), time).effects)
            == [StartedCall(s.contentType, s.topic),
                Analytics.ContentGeneration(s.contentType, s.topic, Some(s.difficulty), Some(s.count))]
  {
    var started := Start(s);
    var p := started.pending.value;
    var finished := Finish(started.state, p, Responded(body), time);
    assert Tracks(finished.effects)
           == [Analytics.ContentGeneration(p.contentType, p.topic, Some(p.difficulty), Some(p.count))];
    GenerateTracks(s, Responded(body), time);
  }

  /** A thrown value shows `Error: ...`, leaves the history and storage alone,
      and reports exactly one generation error for the requested content type. */
  lemma ErrorIsReported(s: State, thrown: Thrown, time: string)
    requires !IsBlank(s.topic)
    ensures var r := Generate(s, Threw(thrown), time);
            && r.state.output == ErrorText(thrown)
            && r.state.history == s.history
            && Stores(r.effects) == []
            && Tracked(r.effects, "content_generated") == []
            && |Tracked(r.effects, "content_generation_error")| == 1
            && "content_type" in Tracked(r.effects, "content_generation_error")[0].params
            && Tracked(r.effects, "content_generation_error")[0].params["content_type"]
               == Analytics.Str(s.contentType)
            && Toasts(r.effects) == [Failed]
            && !r.state.isLoading
  {
    GenerateSplits(s, Threw(thrown), time);
    GenerateViews(s, Threw(thrown), time, "content_generated");
    GenerateViews(s, Threw(thrown), time, "content_generation_error");
  }

  /** The loading flag is raised before the request goes out, which disables the
      generate button, and is lowered again on both completion paths. */
  lemma LoadingBracketsTheRequest(s: State, outcome: Outcome, time: string)
    requires !IsBlank(s.topic)
    ensures GenerateDisabled(Start(s).state)
    ensures !GenerateDisabled(Finish(Start(s).state, Start(s).pending.value, outcome, time).state)
  {
  }

  /** While a request is in flight the button is disabled, so another click
      sends no second request, reports nothing and changes nothing. */
  lemma ClickWhileLoadingIsIgnored(s: State, outcome: Outcome, again: Outcome, time: string)
    requires !IsBlank(s.topic)
    ensures var inFlight := Start(s).state;
            Click(inFlight, again, time) == Step(inFlight, [])
    ensures Fetches(Click(Start(s).state, again, time).effects) == []
  {
  }

  /** A history of at most ten entries stays within ten entries across any run
      of the step, whatever the outcomes. */
  lemma HistoryStaysBounded(s: State, outcome: Outcome, time: string)
    requires |s.history| <= Capacity
    ensures |Generate(s, outcome, time).state.history| <= Capacity
  {
  }
}

=== FILE: history.dfy ===
/** The recent-generations list: most recent first, capped at ten entries, and
    written back in full under one storage key after every successful generation. */
module History {

  /** One remembered generation; `time` is the display timestamp captured when it was saved. */
  datatype HistoryItem = HistoryItem(prompt: string, result: string, time: string)

  const Capacity: nat := 10

  /** The browser storage key the list is written under. */
  const StorageKey: string := "ai-history"

  function Min(a: int, b: int): int {
    if a < b then a else b
  }

  /** `[newItem, ...history].slice(0, 10)`. */
  function Save(history: seq<HistoryItem>, item: HistoryItem): (r: seq<HistoryItem>)
    ensures |r| == Min(|history| + 1, Capacity)
    ensures r[0] == item
    ensures r[1..] == history[..|r| - 1]
  {
    ([item] + history)[..Min(|history| + 1, Capacity)]
  }

  /** Saving `items` one after the other, in order. */
  function SaveAll(history: seq<HistoryItem>, items: seq<HistoryItem>): seq<HistoryItem>
  {
    if |items| == 0 then history
    else Save(SaveAll(history, items[..|items| - 1]), items[|items| - 1])
  }

  function Reverse<T>(s: seq<T>): (r: seq<T>)
    ensures |r| == |s|
    ensures forall i :: 0 <= i < |s| ==> r[i] == s[|s| - 1 - i]
  {
    if |s| == 0 then [] else [s[|s| - 1]] + Reverse(s[..|s| - 1])
  }

  /** How many entries survive `n` saves onto a list of length `len`: a list
      loaded from storage is kept whole until the first save cuts it. */
  function Kept(n: nat, len: nat): nat
  {
    if n == 0 then len else Min(n + len, Capacity)
  }

  /** After any sequence of saves the list is the newest saves, newest first,
      followed by the older list, cut to the capacity. */
  lemma {:induction false} SaveAllKeepsNewest(history: seq<HistoryItem>, items: seq<HistoryItem>)
    ensures SaveAll(history, items) == (Reverse(items) + history)[..Kept(|items|, |history|)]
  {
    if |items| > 0 {
      var init := items[..|items| - 1];
      var last := items[|items| - 1];
      var whole := Reverse(init) + history;
      var m := Kept(|init|, |history|);
      SaveAllKeepsNewest(history, init);
      assert SaveAll(history, items) == Save(whole[..m], last);
      assert Reverse(items) == [last] + Reverse(init);
      assert Reverse(items) + history == [last] + whole;
      var r := Save(whole[..m], last);
      var r' := ([last] + whole)[..Min(|items| + |history|, Capacity)];
      assert |r| == |r'|;
      forall i | 0 <= i < |r|
        ensures r[i] == r'[i]
      {
        if i > 0 {
          assert r[i] == r[1..][i - 1];
        }
      }
    } else {
      assert Reverse(items) + history == history;
      assert history[..|history|] == history;
    }
  }

  /** The list never grows beyond its capacity, however many saves happen. */
  lemma SaveAllBounded(history: seq<HistoryItem>, items: seq<HistoryItem>)
    requires |items| > 0
    ensures |SaveAll(history, items)| <= Capacity
  {
    SaveAllKeepsNewest(history, items);
  }

  /** Once at least ten saves have happened, the list is exactly the last ten
      saved entries, newest first, and nothing of the older list remains. */
  lemma SaveAllForgetsOld(history: seq<HistoryItem>, items: seq<HistoryItem>)
    requires |items| >= Capacity
    ensures SaveAll(history, items) == Reverse(items[|items| - Capacity..])
  {
    SaveAllKeepsNewest(history, items);
    var r := SaveAll(history, items);
    var last := Reverse(items[|items| - Capacity..]);
    assert |r| == Capacity;
    forall i | 0 <= i < Capacity
      ensures r[i] == last[i]
    {
      assert r[i] == Reverse(items)[i];
    }
  }
}

=== FILE: js_text.dfy ===
/** The few ECMAScript string and number primitives the application relies on:
    `String.prototype.trim`, `Number.parseInt`, the decimal rendering of an
    integer inside a template literal, `charAt(0).toUpperCase()` and `slice(0, n)`. */
module JsText {
  import opened Wrappers

  /** The WhiteSpace and LineTerminator code points of ECMAScript: what `trim`
      strips and what `parseInt` skips. */
  predicate IsWhiteSpace(c: char) {
    || c == '\t' || c == '\n' || c == '\U{000B}' || c == '\U{000C}' || c == '\r'
    || c == ' ' || c == '\U{00A0}' || c == '\U{1680}'
    || ('\U{2000}' <= c <= '\U{200A}')
    || c == '\U{2028}' || c == '\U{2029}' || c == '\U{202F}' || c == '\U{205F}'
    || c == '\U{3000}' || c == '\U{FEFF}'
  }

  predicate AllWhiteSpace(s: string) {
    forall i :: 0 <= i < |s| ==> IsWhiteSpace(s[i])
  }

  /** Number of white-space characters at the front of `s`. */
  function LeadingWhiteSpace(s: string): (k: nat)
    ensures k <= |s|
    ensures AllWhiteSpace(s[..k])
    ensures k < |s| ==> !IsWhiteSpace(s[k])
  {
    if |s| == 0 || !IsWhiteSpace(s[0]) then 0
    else
      var k' := LeadingWhiteSpace(s[1..]);
      assert s[1..][..k'] == s[1..k' + 1];
      1 + k'
  }

  /** Number of white-space characters at the back of `s`. */
  function TrailingWhiteSpace(s: string): (k: nat)
    ensures k <= |s|
    ensures AllWhiteSpace(s[|s| - k..])
    ensures k < |s| ==> !IsWhiteSpace(s[|s| - 1 - k])
  {
    if |s| == 0 || !IsWhiteSpace(s[|s| - 1]) then 0
    else
      var k' := TrailingWhiteSpace(s[..|s| - 1]);
      assert s[..|s| - 1][|s| - 1 - k'..] == s[|s| - 1 - k'..|s| - 1];
      1 + k'
  }

  /** `s.trim()`: the longest infix of `s` that neither starts nor ends with
      white space, and only white space around it. */
  function Trim(s: string): (r: string)
    ensures r != [] ==> !IsWhiteSpace(r[0]) && !IsWhiteSpace(r[|r| - 1])
    ensures exists i, j :: 0 <= i <= j <= |s| && r == s[i..j]
                           && AllWhiteSpace(s[..i]) && AllWhiteSpace(s[j..])
  {
    var i := LeadingWhiteSpace(s);
    var t := s[i..];
    var k := TrailingWhiteSpace(t);
    assert t[..|t| - k] == s[i..|s| - k];
    assert t[|t| - k..] == s[|s| - k..];
    t[..|t| - k]
  }

  /** `!s.trim()`: the string is empty after trimming. */
  predicate IsBlank(s: string) {
    Trim(s) == ""
  }

  /** A string is blank exactly when every one of its characters is white space. */
  lemma BlankIffAllWhiteSpace(s: string)
    ensures IsBlank(s) <==> AllWhiteSpace(s)
  {
    var i := LeadingWhiteSpace(s);
    if AllWhiteSpace(s) {
      assert i == |s|;
    }
    if !AllWhiteSpace(s) {
      var t := s[i..];
      assert i < |s| && !IsWhiteSpace(t[0]);
      assert TrailingWhiteSpace(t) < |t|;
    }
  }

  // ---------------------------------------------------------------------------
  // Digits

  /** The value of a radix digit as `parseInt` reads it (0-9, then a-z / A-Z as
      10-35); 36 for a character that is no digit in any radix. */
  function DigitValue(c: char): (d: nat)
    ensures d <= 36
  {
    if '0' <= c <= '9' then c as int - '0' as int
    else if 'a' <= c <= 'z' then c as int - 'a' as int + 10
    else if 'A' <= c <= 'Z' then c as int - 'A' as int + 10
    else 36
  }

  predicate IsDecimalDigit(c: char) {
    '0' <= c <= '9'
  }

  function DecimalDigit(d: nat): (c: char)
    requires d < 10
    ensures IsDecimalDigit(c) && DigitValue(c) == d
  {
    (d + '0' as int) as char
  }

  /** Decimal rendering of a natural number, most significant digit first,
      without leading zeros. */
  function NatToString(n: nat): (r: string)
    ensures |r| >= 1
    ensures forall i :: 0 <= i < |r| ==> IsDecimalDigit(r[i])
    ensures r[0] == '0' <==> n == 0
    ensures n == 0 ==> r == "0"
  {
    if n < 10 then [DecimalDigit(n)] else NatToString(n / 10) + [DecimalDigit(n % 10)]
  }

  /** `${n}` for an integer-valued JavaScript number below 1e21 in magnitude. */
  function IntToString(n: int): (r: string)
    ensures |r| >= 1
    ensures r[0] == '-' <==> n < 0
    ensures forall i :: (if n < 0 then 1 else 0) <= i < |r| ==> IsDecimalDigit(r[i])
    ensures n < 0 ==> |r| >= 2 && r[1] != '0'
    ensures r[0] == '0' ==> r == "0"
  {
    if n < 0 then "-" + NatToString(-n) else NatToString(n)
  }

  /** Length of the longest prefix of `s` made of digits of the given radix. */
  function DigitRun(s: string, radix: nat): (k: nat)
    ensures k <= |s|
    ensures forall i :: 0 <= i < k ==> DigitValue(s[i]) < radix
    ensures k < |s| ==> DigitValue(s[k]) >= radix
  {
    if |s| == 0 || DigitValue(s[0]) >= radix then 0 else 1 + DigitRun(s[1..], radix)
  }

  /** The number a digit string denotes in the given radix. */
  function DigitsValue(s: string, radix: nat): nat
  {
    if |s| == 0 then 0
    else DigitsValue(s[..|s| - 1], radix) * radix + DigitValue(s[|s| - 1])
  }

  /** The digits part of `parseInt`, after the sign: switch to radix 16 on a
      `0x`/`0X` prefix, then read the longest run of digits; `None` when there is
      no digit at all. */
  function ParseUnsigned(u: string): (r: Option<nat>)
  {
    var hex := |u| >= 2 && u[0] == '0' && (u[1] == 'x' || u[1] == 'X');
    var radix := if hex then 16 else 10;
    var v := if hex then u[2..] else u;
    var k := DigitRun(v, radix);
    if k == 0 then None else Some(DigitsValue(v[..k], radix))
  }

  /** `Number.parseInt(s)` with no radix argument: skip leading white space, read
      an optional sign, then the digits. `None` is `NaN`; negative zero is 0. */
  function ParseInt(s: string): (r: Option<int>)
    ensures r.Some? ==> exists i :: 0 <= i < |s| && IsDecimalDigit(s[i])
    ensures r.Some? && r.value < 0 ==> exists i :: 0 <= i < |s| && s[i] == '-'
  {
    var lead := LeadingWhiteSpace(s);
    var t := s[lead..];
    var negative := |t| > 0 && t[0] == '-';
    var signed := |t| > 0 && (t[0] == '+' || t[0] == '-');
    var u := if signed then t[1..] else t;
    match ParseUnsigned(u)
    case None => None
    case Some(m) =>
      var start := if signed then lead + 1 else lead;
      assert u == s[start..];
      assert IsDecimalDigit(u[0]) by {
        var hex := |u| >= 2 && u[0] == '0' && (u[1] == 'x' || u[1] == 'X');
        if !hex {
          assert DigitRun(u, 10) > 0;
        }
      }
      assert IsDecimalDigit(s[start]);
      assert negative ==> s[lead] == '-';
      Some(if negative then -(m as int) else m)
  }

  /** What follows the rendering of `n` cannot continue it: nothing, or a
      character that is not a decimal digit and, after a lone `0`, is not the
      `x` or `X` that would switch `parseInt` to hexadecimal. */
  predicate EndsNumber(n: int, rest: string) {
    |rest| == 0 || (!IsDecimalDigit(rest[0]) && (n != 0 || (rest[0] != 'x' && rest[0] != 'X')))
  }

  lemma {:induction false} DigitsValueOfNatToString(n: nat)
    ensures DigitsValue(NatToString(n), 10) == n
  {
    if n >= 10 {
      var p := NatToString(n / 10);
      var r := NatToString(n);
      assert r[..|r| - 1] == p;
      DigitsValueOfNatToString(n / 10);
    }
  }

  lemma DigitRunOfNatToString(n: nat, rest: string)
    requires EndsNumber(n, rest)
    ensures DigitRun(NatToString(n) + rest, 10) == |NatToString(n)|
  {
    var r := NatToString(n);
    assert forall i :: 0 <= i < |r| ==> (r + rest)[i] == r[i];
    if |rest| > 0 {
      assert (r + rest)[|r|] == rest[0];
    }
  }

  lemma ParseUnsignedOfNatToString(n: nat, rest: string)
    requires EndsNumber(n, rest)
    ensures ParseUnsigned(NatToString(n) + rest) == Some(n)
  {
    var digits := NatToString(n);
    var u := digits + rest;
    if |u| >= 2 && u[0] == '0' {
      assert digits == "0";
      assert u[1] == rest[0];
    }
    DigitRunOfNatToString(n, rest);
    assert u[..|digits|] == digits;
    DigitsValueOfNatToString(n);
  }

  /** `parseInt` does not skip anything in front of a sign or a digit. */
  lemma NoLeadingWhiteSpace(s: string)
    requires |s| > 0 && (s[0] == '-' || IsDecimalDigit(s[0]))
    ensures s[LeadingWhiteSpace(s)..] == s
  {
    assert !IsWhiteSpace(s[0]);
  }

  lemma ParseIntNonNegative(u: string)
    requires |u| > 0 && IsDecimalDigit(u[0])
    ensures ParseInt(u) == ParseUnsigned(u)
  {
    NoLeadingWhiteSpace(u);
    var t := u[LeadingWhiteSpace(u)..];
    assert t == u;
    assert !(t[0] == '+' || t[0] == '-');
  }

  lemma ParseIntNegative(s: string, m: nat)
    requires |s| > 1 && s[0] == '-' && IsDecimalDigit(s[1])
    requires ParseUnsigned(s[1..]) == Some(m)
    ensures ParseInt(s) == Some(-(m as int))
  {
    NoLeadingWhiteSpace(s);
    var t := s[LeadingWhiteSpace(s)..];
    assert t == s;
  }

  lemma SignedDigits(digits: string, rest: string)
    requires |digits| > 0
    ensures ("-" + digits + rest)[0] == '-'
    ensures ("-" + digits + rest)[1..] == digits + rest
  {
  }

  lemma {:induction false} ParseIntOfNegated(m: nat, rest: string)
    requires EndsNumber(m, rest)
    ensures ParseInt("-" + NatToString(m) + rest) == Some(-(m as int))
  {
    var digits := NatToString(m);
    var u := digits + rest;
    var s := "-" + digits + rest;
    assert ParseUnsigned(u) == Some(m) by {
      ParseUnsignedOfNatToString(m, rest);
    }
    assert |s| > 1 && s[0] == '-' && IsDecimalDigit(s[1]) && s[1..] == u by {
      SignedDigits(digits, rest);
      assert s[1] == digits[0];
    }
    ParseIntNegative(s, m);
  }

  /** Reading back a rendered integer: `parseInt` recovers `n` from its decimal
      rendering, whatever follows it as long as that cannot continue the
      number. */
  lemma {:induction false} ParseIntOfIntToString(n: int, rest: string)
    requires EndsNumber(n, rest)
    ensures ParseInt(IntToString(n) + rest) == Some(n)
  {
    if n < 0 {
      ParseIntOfNegated(-n, rest);
    } else {
      var u := NatToString(n) + rest;
      ParseUnsignedOfNatToString(n, rest);
      assert u[0] == NatToString(n)[0];
      ParseIntNonNegative(u);
    }
  }

  // ---------------------------------------------------------------------------
  // Case and slicing

  /** `toUpperCase` restricted to ASCII letters; other characters are unchanged. */
  function AsciiUpper(c: char): (u: char)
    ensures 'a' <= c <= 'z' ==> 'A' <= u <= 'Z' && u as int - 'A' as int == c as int - 'a' as int
    ensures !('a' <= c <= 'z') ==> u == c
  {
    if 'a' <= c <= 'z' then (c as int - 'a' as int + 'A' as int) as char else c
  }

  /** `s.charAt(0).toUpperCase() + s.slice(1)`. */
  function Capitalize(s: string): (r: string)
    ensures |r| == |s|
    ensures |s| > 0 ==> r[0] == AsciiUpper(s[0]) && r[1..] == s[1..]
  {
    if |s| == 0 then "" else [AsciiUpper(s[0])] + s[1..]
  }

  /** Dropping a known prefix leaves what followed it. */
  lemma DropPrefix(a: string, b: string)
    ensures (a + b)[|a|..] == b
  {
  }

  /** `s.slice(0, n)` for a non-negative `n`. */
  function Prefix(s: string, n: nat): (r: string)
    ensures |r| == if n < |s| then n else |s|
    ensures r <= s
  {
    if n < |s| then s[..n] else s
  }
}

=== FILE: page.dfy ===
/** The remaining handlers and expressions of the home page: the question-count
    input, the theme and menu toggles, the history dialog, the copy and download
    buttons and the text handed to the share dialog. */
module Page {
  import opened Wrappers
  import opened JsText
  import Analytics
  import opened Effects
  import opened Generation
  import opened History
  import SocialShare
  import UriEncoding

  // ---------------------------------------------------------------------------
  // Question count

  /** `Number.parseInt(value) || 5`: NaN and zero fall back to five. */
  function CountFromInput(value: string): (n: int)
    ensures n != 0
    ensures ParseInt(value).Some? && ParseInt(value).value != 0 ==> n == ParseInt(value).value
    ensures ParseInt(value).None? || ParseInt(value) == Some(0) ==> n == 5
  {
    match ParseInt(value)
    case Some(m) => if m != 0 then m else 5
    case None => 5
  }

  /** A non-zero count typed in decimal is taken as it is. */
  lemma CountInputRoundTrip(n: int)
    requires n != 0
    ensures CountFromInput(IntToString(n)) == n
  {
    ParseIntOfIntToString(n, "");
    assert IntToString(n) + "" == IntToString(n);
  }

  // ---------------------------------------------------------------------------
  // Theme and menu

  /** `theme === "dark" ? "light" : "dark"`; `None` is an unresolved theme. */
  function ToggleTheme(theme: Option<string>): (t: string)
    ensures t == "light" || t == "dark"
    ensures t == "light" <==> theme == Some("dark")
  {
    if theme == Some("dark") then "light" else "dark"
  }

  /** `handleThemeChange`: the new theme is applied and reported under the same name. */
  function HandleThemeChange(theme: Option<string>): (r: (string, seq<Effect>))
    ensures r.0 == ToggleTheme(theme)
    ensures |r.1| > 0 && r.1[0] == ApplyTheme(r.0)
    ensures Tracks(r.1) == [Analytics.ThemeChange(r.0)]
  {
    var t := ToggleTheme(theme);
    (t, [ApplyTheme(t)] + [Track(Analytics.ThemeChange(t))])
  }

  /** Toggling twice returns to a light or dark theme; any other theme (`system`,
      unresolved) becomes dark on the first toggle. */
  lemma ThemeToggleTwice(theme: Option<string>)
    ensures theme == Some("light") || theme == Some("dark") ==>
              Some(ToggleTheme(Some(ToggleTheme(theme)))) == theme
    ensures theme != Some("dark") ==> ToggleTheme(theme) == "dark"
  {
  }

  /** `handleMenuClick`: the menu flag flips and a `menu_toggle` interaction is reported. */
  function HandleMenuClick(showMenu: bool): (r: (bool, seq<Effect>))
    ensures r.0 == !showMenu
    ensures Tracks(r.1) == [Analytics.MenuInteraction("menu_toggle")]
    ensures Toasts(r.1) == [] && Stores(r.1) == []
  {
    (!showMenu, [Track(Analytics.MenuInteraction("menu_toggle"))])
  }

  /** Two clicks restore the menu. */
  lemma MenuClickTwice(showMenu: bool)
    ensures HandleMenuClick(HandleMenuClick(showMenu).0).0 == showMenu
  {
  }

  /** `handleHistoryClick`: the one effect is the history view. */
  function HandleHistoryClick(): (effects: seq<Effect>)
    ensures |effects| == 1
    ensures Tracks(effects) == [Analytics.HistoryView()] && Toasts(effects) == []
    ensures Stores(effects) == [] && Fetches(effects) == []
  {
    [Track(Analytics.HistoryView())]
  }

  // ---------------------------------------------------------------------------
  // History dialog and share text

  const PreviewLength: nat := 200

  /** `{item.result.slice(0, 200)}...`: the first 200 characters of a result
      followed by a literal ellipsis, which is shown even for short results. */
  function HistoryPreview(result: string): (r: string)
    ensures |r| == Min(|result|, PreviewLength) + 3
    ensures r[..|r| - 3] <= result
    ensures r[|r| - 3..] == "..."
    ensures |result| <= PreviewLength ==> r == result + "..."
  {
    Prefix(result, PreviewLength) + "..."
  }

  const ShareIntro: string := "I just created amazing educational content with QuizSolver App: "

  /** The `text` prop of the share dialog: the topic in double quotes when the
      topic string is non-empty (untrimmed), otherwise a generic phrase. */
  function ShareText(topic: string): (r: string)
    ensures ShareIntro <= r
    ensures topic != "" ==> r[|ShareIntro|..] == "\"" + topic + "\""
    ensures topic == "" ==> r[|ShareIntro|..] == "AI-powered learning"
  {
    ShareIntro + (if topic != "" then "\"" + topic + "\"" else "AI-powered learning")
  }

  /** Different topics give different share texts: the topic can be read back. */
  lemma ShareTextInjective(t1: string, t2: string)
    requires ShareText(t1) == ShareText(t2)
    ensures t1 == t2
  {
    var k := |ShareIntro|;
    var q := ShareText(t1)[k..];
    if t1 != "" && t2 != "" {
      assert q[1..|q| - 1] == t1;
      assert q[1..|q| - 1] == t2;
    }
  }

  // ---------------------------------------------------------------------------
  // Copy and download

  const Copied: Notice := Notice("Copied", "Text has been copied to clipboard.", false)
  const CopyFailed: Notice := Notice("Copy Failed", "Failed to copy text to clipboard.", true)
  const Downloaded: Notice := Notice("Downloaded", "Content has been downloaded as a text file.", false)

  /** The fixed name of the downloaded file. */
  const DownloadName: string := "ai_output.txt"

  /** `copyToClipboard`: the output is offered to the clipboard; `written` is
      whether the browser accepted it. */
  function CopyToClipboard(s: State, written: bool): (effects: seq<Effect>)
    ensures |effects| > 0 && effects[0] == WriteClipboard(s.output)
    ensures written ==> Toasts(effects) == [Copied] && Tracks(effects) == [CopiedCall(s.contentType)]
    ensures !written ==> Toasts(effects) == [CopyFailed] && Tracks(effects) == []
  {
    var write := WriteClipboard(s.output);
    if written then
      var track := Track(CopiedCall(s.contentType));
      TracksDistribute([write], [track]);
      ToastsDistribute([write], [track]);
      TracksDistribute([write] + [track], [Toast(Copied)]);
      ToastsDistribute([write] + [track], [Toast(Copied)]);
      [write] + [track] + [Toast(Copied)]
    else [write] + [Toast(CopyFailed)]
  }

  /** The copy event: its category, the selected content type and the
      default label and value. */
  function CopiedCall(contentType: string): (c: Analytics.Call)
    ensures c.name == "content_copied"
    ensures Analytics.Sent(c).Keys == {"event_category", "event_label", "value", "content_type"}
    ensures Analytics.Sent(c)["event_category"] == Analytics.Str("content_interaction")
    ensures Analytics.Sent(c)["content_type"] == Analytics.Str(contentType)
    ensures Analytics.Sent(c)["event_label"] == Analytics.Str("")
    ensures Analytics.Sent(c)["value"] == Analytics.Num(0)
  {
    Analytics.Call("content_copied",
                   map["event_category" := Analytics.Str("content_interaction"),
                       "content_type" := Analytics.Str(contentType)])
  }

  /** `downloadPDF`: the output is saved as plain text under a fixed name and a
      `txt` download is reported. */
  function Download(s: State): (effects: seq<Effect>)
    ensures |effects| > 0 && effects[0] == DownloadFile(DownloadName, s.output)
    ensures Tracks(effects) == [Analytics.ContentDownload(s.contentType, "txt")]
    ensures Toasts(effects) == [Downloaded]
  {
    var file := DownloadFile(DownloadName, s.output);
    var track := Track(Analytics.ContentDownload(s.contentType, "txt"));
    TracksDistribute([file], [track]);
    ToastsDistribute([file], [track]);
    TracksDistribute([file] + [track], [Toast(Downloaded)]);
    ToastsDistribute([file] + [track], [Toast(Downloaded)]);
    [file] + [track] + [Toast(Downloaded)]
  }

  /** The result dialog renders the share component with a title and the share
      text but no `url`, so its links carry the page's own location, and the
      WhatsApp message is the share text followed by that location. */
  lemma ShareDialogSharesLocation(topic: string, title: string, location: string)
    ensures var links := SocialShare.LinksOf(SocialShare.Props(Some(title), Some(ShareText(topic)), None),
                                             Some(location));
            && UriEncoding.Decode(links.facebook[|SocialShare.FacebookBase|..]) == Some(location)
            && UriEncoding.Decode(links.linkedin[|SocialShare.LinkedInBase|..]) == Some(location)
            && UriEncoding.Decode(links.whatsapp[|SocialShare.WhatsAppBase|..])
               == Some(ShareText(topic) + " " + location)
  {
  }
}

=== FILE: prompt.dfy ===
/** The prompt sent to the provider, built from the selected content type, the
    topic as typed (untrimmed, in double quotes), the difficulty and the
    question count. */
module Prompt {
  import opened Wrappers
  import opened JsText

  const QuizLead: string := "Generate "
  const NotesLead: string := "Write detailed notes on \""
  const AssignmentLead: string := "Create a student assignment on \""
  const NotesTail: string := "\" in bullet points."
  const AssignmentTail: string := "\" with instructions and 5+ questions."

  /** The text between the quoted topic and the difficulty in a quiz prompt. */
  const QuizMiddle: string := "\" with answers. Difficulty: "

  /** The text between the count and the quoted topic in a quiz prompt. */
  const QuizCountTail: string := " multiple choice questions on \""

  /** The prompt for a `quiz`, for `notes`, and for every other type value. */
  function Build(contentType: string, topic: string, difficulty: string, count: int): (p: string)
    ensures QuizLead <= p <==> contentType == "quiz"
    ensures NotesLead <= p <==> contentType == "notes"
    ensures AssignmentLead <= p <==> contentType != "quiz" && contentType != "notes"
  {
    if contentType == "quiz" then
      var p := QuizPrompt(topic, difficulty, count);
      assert p[0] == 'G';
      p
    else if contentType == "notes" then
      var p := NotesLead + topic + NotesTail;
      assert p[0] == 'W' && p[..|NotesLead|] == NotesLead;
      p
    else
      var p := AssignmentLead + topic + AssignmentTail;
      assert p[0] == 'C' && p[..|AssignmentLead|] == AssignmentLead;
      p
  }

  /** A quiz prompt: its head (the leading word, the count and the text before
      the opening quote), then the topic, the text after the closing quote and
      the difficulty. */
  function QuizPrompt(topic: string, difficulty: string, count: int): (p: string)
    ensures QuizLead <= p
  {
    var head := QuizHead(count);
    var p := head + topic + QuizMiddle + difficulty;
    assert p[..|QuizLead|] == QuizLead by {
      Framed(head, topic, QuizMiddle, difficulty);
    }
    p
  }

  function QuizHead(count: int): (h: string)
    ensures QuizLead <= h && |h| > 0 && h[|h| - 1] == '"'
    ensures |QuizLead| + |QuizCountTail| < |h| && h[|h| - |QuizCountTail|..] == QuizCountTail
  {
    var h := QuizLead + IntToString(count) + QuizCountTail;
    assert h[|h| - |QuizCountTail|..] == QuizCountTail;
    h
  }

  /** A topic framed by a head and a middle sits at a known place and can be
      cut back out, as can what follows the middle. */
  lemma Framed(head: string, topic: string, middle: string, tail: string)
    ensures var p := head + topic + middle + tail;
            && |p| == |head| + |topic| + |middle| + |tail|
            && p[..|head|] == head
            && p[|head|..|head| + |topic|] == topic
            && p[|head| + |topic|..|head| + |topic| + |middle|] == middle
            && p[|head| + |topic| + |middle|..] == tail
  {
  }

  predicate EndsWith(s: string, suffix: string) {
    |suffix| <= |s| && s[|s| - |suffix|..] == suffix
  }

  /** Where the quoted topic starts in a quiz prompt. */
  function QuizTopicStart(count: int): nat
  {
    |QuizHead(count)|
  }

  lemma QuizPromptCount(topic: string, difficulty: string, count: int)
    ensures ParseInt(QuizPrompt(topic, difficulty, count)[|QuizLead|..]) == Some(count)
  {
    var n := IntToString(count);
    var rest := QuizCountTail + topic + QuizMiddle + difficulty;
    assert QuizPrompt(topic, difficulty, count) == QuizLead + (n + rest) by {
      Associate(QuizLead, n, QuizCountTail, topic, QuizMiddle, difficulty);
    }
    DropPrefix(QuizLead, n + rest);
    ParseIntOfIntToString(count, rest);
  }

  lemma Associate(a: string, b: string, c: string, d: string, e: string, f: string)
    ensures (a + b + c) + d + e + f == a + (b + (c + d + e + f))
  {
  }

  lemma QuizPromptTopic(topic: string, difficulty: string, count: int)
    ensures var p := QuizPrompt(topic, difficulty, count);
            var k := QuizTopicStart(count);
            && |p| == k + |topic| + |QuizMiddle| + |difficulty|
            && p[..k] == QuizHead(count)
            && p[k - |QuizCountTail|..k] == QuizCountTail
            && p[k - 1] == '"'
            && p[k..k + |topic|] == topic
            && p[k + |topic|..k + |topic| + |QuizMiddle|] == QuizMiddle
            && p[k + |topic|] == '"'
            && p[k + |topic| + |QuizMiddle|..] == difficulty
  {
    var head := QuizHead(count);
    var p := QuizPrompt(topic, difficulty, count);
    var k := |head|;
    Framed(head, topic, QuizMiddle, difficulty);
    assert p[k - |QuizCountTail|..k] == p[..k][k - |QuizCountTail|..] == head[k - |QuizCountTail|..];
    assert p[k - 1] == p[..k][k - 1] == head[k - 1];
    assert p[k + |topic|] == p[k + |topic|..k + |topic| + |QuizMiddle|][0] == QuizMiddle[0];
  }

  /** A quiz prompt carries all three options: `parseInt` reads the count back
      right after the leading word, the topic sits verbatim between double
      quotes, and the prompt ends with the difficulty. */
  lemma QuizPromptCarriesOptions(topic: string, difficulty: string, count: int)
    ensures var p := Build("quiz", topic, difficulty, count);
            var k := QuizTopicStart(count);
            && ParseInt(p[|QuizLead|..]) == Some(count)
            && p[k - 1] == '"' && p[k..k + |topic|] == topic && p[k + |topic|] == '"'
            && EndsWith(p, difficulty)
  {
    assert Build("quiz", topic, difficulty, count) == QuizPrompt(topic, difficulty, count);
    QuizPromptCount(topic, difficulty, count);
    QuizPromptTopic(topic, difficulty, count);
  }

  /** Notes and assignment prompts hold the topic verbatim between their fixed
      opening and closing text, so different topics give different prompts. */
  lemma TopicRecoverable(contentType: string, topic: string, difficulty: string, count: int)
    requires contentType != "quiz"
    ensures var p := Build(contentType, topic, difficulty, count);
            var lead := if contentType == "notes" then NotesLead else AssignmentLead;
            var tail := if contentType == "notes" then NotesTail else AssignmentTail;
            && |p| == |lead| + |topic| + |tail|
            && p[..|lead|] == lead
            && p[|lead|..|lead| + |topic|] == topic
            && p[|lead| + |topic|..] == tail
  {
    var lead := if contentType == "notes" then NotesLead else AssignmentLead;
    var tail := if contentType == "notes" then NotesTail else AssignmentTail;
    Framed(lead, topic, tail, "");
    assert lead + topic + tail + "" == lead + topic + tail;
  }

  /** The prompt of a fixed type and count determines the topic for notes and
      assignments, and the topic together with the difficulty for quizzes once
      the topic's length is known. Without that condition the quiz prompt is
      ambiguous: see `QuizPromptAmbiguous`. */
  lemma BuildInjective(contentType: string, t1: string, t2: string, d1: string, d2: string, count: int)
    requires Build(contentType, t1, d1, count) == Build(contentType, t2, d2, count)
    requires contentType == "quiz" ==> |t1| == |t2|
    ensures t1 == t2
    ensures contentType == "quiz" ==> d1 == d2
  {
    var p := Build(contentType, t1, d1, count);
    if contentType == "quiz" {
      assert p == QuizPrompt(t1, d1, count) == QuizPrompt(t2, d2, count);
      QuizPromptTopic(t1, d1, count);
      QuizPromptTopic(t2, d2, count);
    } else {
      TopicRecoverable(contentType, t1, d1, count);
      TopicRecoverable(contentType, t2, d2, count);
    }
  }

  /** A topic may itself contain the text that follows the closing quote, so two
      different pairs of topic and difficulty can produce the same quiz prompt:
      the topic `t + QuizMiddle + m` with difficulty `d`, and the topic `t` with
      difficulty `m + QuizMiddle + d`. */
  lemma QuizPromptAmbiguous(t: string, m: string, d: string, count: int)
    ensures t + QuizMiddle + m != t
    ensures Build("quiz", t + QuizMiddle + m, d, count) == Build("quiz", t, m + QuizMiddle + d, count)
  {
    var head := QuizHead(count);
    assert |t + QuizMiddle + m| > |t|;
    calc {
      Build("quiz", t + QuizMiddle + m, d, count);
      head + (t + QuizMiddle + m) + QuizMiddle + d;
      { Associate(head, t, QuizMiddle, m, QuizMiddle, d); }
      head + t + QuizMiddle + (m + QuizMiddle + d);
      Build("quiz", t, m + QuizMiddle + d, count);
    }
  }
}

=== FILE: social_share.dfy ===
/** The `SocialShare` component: the link it shares (the `url` prop or the
    current location), the four platform deep links built from the
    percent-encoded text and link, the share handler and the copy-link button. */
module SocialShare {
  import opened Wrappers
  import opened JsText
  import opened UriEncoding
  import Analytics
  import opened Effects

  const DefaultText: string := "Check out this AI-powered quiz generator!"

  /** The component's props; a default applies only to a missing prop. The
      component percent-encodes `title` but no link uses it, so nothing here
      depends on it. */
  datatype Props = Props(title: Option<string>, text: Option<string>, url: Option<string>)

  function Text(p: Props): string { p.text.GetOr(DefaultText) }

  /** `url || (typeof window !== "undefined" ? window.location.href : "")`;
      `location` is `None` where no window exists (server rendering). */
  function ShareUrl(url: Option<string>, location: Option<string>): (r: string)
    ensures url.Some? && url.value != "" ==> r == url.value
    ensures (url.None? || url == Some("")) ==> r == location.GetOr("")
  {
    if url.Some? && url.value != "" then url.value else location.GetOr("")
  }

  datatype Platform = Twitter | Facebook | LinkedIn | WhatsApp {
    /** The key of the platform in the links object, as passed to `handleShare`. */
    function Key(): string {
      match this
      case Twitter => "twitter"
      case Facebook => "facebook"
      case LinkedIn => "linkedin"
      case WhatsApp => "whatsapp"
    }
  }

  datatype Links = Links(twitter: string, facebook: string, linkedin: string, whatsapp: string) {
    function For(p: Platform): string {
      match p
      case Twitter => twitter
      case Facebook => facebook
      case LinkedIn => linkedin
      case WhatsApp => whatsapp
    }
  }

  const TwitterBase: string := "https://twitter.com/intent/tweet?"
  const Hashtags: string := "hashtags=AI,Education,QuizGenerator"
  const FacebookBase: string := "https://www.facebook.com/sharer/sharer.php?u="
  const LinkedInBase: string := "https://www.linkedin.com/sharing/share-offsite/?url="
  const WhatsAppBase: string := "https://wa.me/?text="

  /** Query fields joined by `&`. */
  function Join(fields: seq<string>): string
  {
    if |fields| == 0 then ""
    else if |fields| == 1 then fields[0]
    else fields[0] + "&" + Join(fields[1..])
  }

  /** The `shareLinks` object. The title is encoded by the component as well, but
      no link uses it, so it is not a parameter here. */
  function BuildLinks(text: string, shareUrl: string): (r: Links)
    ensures TwitterBase <= r.twitter && FacebookBase <= r.facebook
    ensures LinkedInBase <= r.linkedin && WhatsAppBase <= r.whatsapp
    ensures r.facebook[|FacebookBase|..] == Encode(shareUrl)
    ensures r.linkedin[|LinkedInBase|..] == Encode(shareUrl)
  {
    var t := Encode(text);
    var u := Encode(shareUrl);
    DropPrefix(FacebookBase, u);
    DropPrefix(LinkedInBase, u);
    Links(TwitterBase + TwitterQuery(t, u),
          FacebookBase + u,
          LinkedInBase + u,
          WhatsAppBase + WhatsAppMessage(t, u))
  }

  /** The tweet intent's query: the text, the link and the fixed hashtags. */
  function TwitterQuery(t: string, u: string): string {
    Join(["text=" + t, "url=" + u, Hashtags])
  }

  /** The WhatsApp message: the text and the link separated by an encoded space. */
  function WhatsAppMessage(t: string, u: string): string {
    t + "%20" + u
  }


  /** The links the component renders for its props and the page location:
      the Facebook and LinkedIn links carry the shared link, and the WhatsApp
      link the text, a space and the shared link. */
  function LinksOf(p: Props, location: Option<string>): (r: Links)
    ensures FacebookBase <= r.facebook && LinkedInBase <= r.linkedin && WhatsAppBase <= r.whatsapp
    ensures Decode(r.facebook[|FacebookBase|..]) == Some(ShareUrl(p.url, location))
    ensures Decode(r.linkedin[|LinkedInBase|..]) == Some(ShareUrl(p.url, location))
    ensures Decode(r.whatsapp[|WhatsAppBase|..]) == Some(Text(p) + " " + ShareUrl(p.url, location))
  {
    var shareUrl := ShareUrl(p.url, location);
    FacebookLinkedInCarryOnlyUrl(Text(p), Text(p), shareUrl);
    WhatsAppCarriesTextThenUrl(Text(p), shareUrl);
    BuildLinks(Text(p), shareUrl)
  }

  // ---------------------------------------------------------------------------
  // Handlers

  /** The description of the share toast: the platform key with its first
      letter upper-cased. */
  function ShareLabel(p: Platform): (r: string)
    ensures var prefix := "Content shared on ";
            && |r| == |prefix| + |p.Key()|
            && r[..|prefix|] == prefix
            && r[|prefix|..] == Capitalize(p.Key())
            && r[|prefix|] == AsciiUpper(p.Key()[0])
            && r[|prefix| + 1..] == p.Key()[1..]
            && 'A' <= r[|prefix|] <= 'Z'
  {
    var prefix := "Content shared on ";
    var name := Capitalize(p.Key());
    var r := prefix + name;
    assert r[|prefix|..] == name by {
      DropPrefix(prefix, name);
    }
    assert r[|prefix|] == name[0] && r[|prefix| + 1..] == name[1..];
    r
  }

  const LinkCopied: Notice := Notice("Link Copied", "Share link has been copied to clipboard.", false)
  const LinkCopyFailed: Notice := Notice("Copy Failed", "Failed to copy link to clipboard.", true)

  /** `handleShare(platform)`: open the platform's link in a pop-up, report the
      share, and toast. */
  function HandleShare(links: Links, p: Platform): (effects: seq<Effect>)
    ensures |effects| > 0 && effects[0] == OpenWindow(links.For(p), "_blank", "width=600,height=400")
    ensures Tracks(effects) == [Analytics.ContentShare(p.Key(), "app_share")]
    ensures Toasts(effects) == [Notice("Shared!", ShareLabel(p), false)]
  {
    var open := OpenWindow(links.For(p), "_blank", "width=600,height=400");
    var track := Track(Analytics.ContentShare(p.Key(), "app_share"));
    var toast := Toast(Notice("Shared!", ShareLabel(p), false));
    TracksDistribute([open], [track]);
    ToastsDistribute([open], [track]);
    TracksDistribute([open] + [track], [toast]);
    ToastsDistribute([open] + [track], [toast]);
    [open] + [track] + [toast]
  }

  /** `copyLink()`: the share link is offered to the clipboard; `written` is
      whether the browser accepted it. Only a successful copy is reported. */
  function CopyLink(shareUrl: string, written: bool): (effects: seq<Effect>)
    ensures |effects| > 0 && effects[0] == WriteClipboard(shareUrl)
    ensures written ==> Tracks(effects) == [Analytics.ContentShare("copy_link", "app_share")]
                        && Toasts(effects) == [LinkCopied]
    ensures !written ==> Tracks(effects) == [] && Toasts(effects) == [LinkCopyFailed]
    ensures !written ==> Toasts(effects)[0].destructive
  {
    var write := WriteClipboard(shareUrl);
    if written then
      var track := Track(Analytics.ContentShare("copy_link", "app_share"));
      TracksDistribute([write], [track]);
      ToastsDistribute([write], [track]);
      TracksDistribute([write] + [track], [Toast(LinkCopied)]);
      ToastsDistribute([write] + [track], [Toast(LinkCopied)]);
      [write] + [track] + [Toast(LinkCopied)]
    else
      [write] + [Toast(LinkCopyFailed)]
  }

  // ---------------------------------------------------------------------------
  // Reading a query string back

  /** Index of the first `c` in `s`, or `|s|` when there is none. */
  function IndexOf(s: string, c: char): (i: nat)
    ensures i <= |s|
    ensures forall j :: 0 <= j < i ==> s[j] != c
    ensures i < |s| ==> s[i] == c
  {
    if |s| == 0 || s[0] == c then 0 else 1 + IndexOf(s[1..], c)
  }

  /** The `&`-separated fields of a query string. */
  function Fields(q: string): (r: seq<string>)
    ensures |r| >= 1
    decreases |q|
  {
    var i := IndexOf(q, '&');
    if i == |q| then [q] else [q[..i]] + Fields(q[i + 1..])
  }

  predicate NoAmpersand(s: string) {
    forall i :: 0 <= i < |s| ==> s[i] != '&'
  }

  lemma {:induction false} FieldsCons(a: string, b: string)
    requires NoAmpersand(a)
    ensures Fields(a + "&" + b) == [a] + Fields(b)
  {
    var q := a + "&" + b;
    assert q[|a|] == '&';
    assert forall j :: 0 <= j < |a| ==> q[j] == a[j];
    assert IndexOf(q, '&') == |a|;
    assert q[..|a|] == a;
    assert q[|a| + 1..] == b;
  }

  lemma FieldsSingle(a: string)
    requires NoAmpersand(a)
    ensures Fields(a) == [a]
  {
  }

  /** No encoded text can end a query field early. */
  lemma EncodedField(name: string, s: string)
    requires NoAmpersand(name)
    ensures NoAmpersand(name + Encode(s))
  {
    var f := name + Encode(s);
    forall i | 0 <= i < |f| ensures f[i] != '&' {
      if i >= |name| {
        assert f[i] == Encode(s)[i - |name|];
      }
    }
  }

  /** Splitting a joined query gives back its fields when none contains `&`. */
  lemma {:induction false} FieldsOfJoin(fields: seq<string>)
    requires |fields| >= 1
    requires forall i :: 0 <= i < |fields| ==> NoAmpersand(fields[i])
    ensures Fields(Join(fields)) == fields
  {
    if |fields| == 1 {
      FieldsSingle(fields[0]);
    } else {
      FieldsCons(fields[0], Join(fields[1..]));
      FieldsOfJoin(fields[1..]);
    }
  }

  // ---------------------------------------------------------------------------
  // Properties of the links

  /** A tweet query whose text and url fields hold no `&` splits back into
      exactly those fields and the hashtags. */
  lemma TwitterQueryFields(t: string, u: string)
    requires NoAmpersand("text=" + t) && NoAmpersand("url=" + u)
    ensures Fields(TwitterQuery(t, u)) == ["text=" + t, "url=" + u, Hashtags]
  {
    assert NoAmpersand(Hashtags);
    FieldsOfJoin(["text=" + t, "url=" + u, Hashtags]);
  }

  /** The tweet intent's query splits back into its three fields. */
  lemma TwitterFields(text: string, shareUrl: string)
    ensures Fields(TwitterQuery(Encode(text), Encode(shareUrl)))
            == ["text=" + Encode(text), "url=" + Encode(shareUrl), Hashtags]
  {
    EncodedField("text=", text);
    EncodedField("url=", shareUrl);
    TwitterQueryFields(Encode(text), Encode(shareUrl));
  }

  /** The Twitter intent carries exactly three query fields, and the text and
      url fields decode back to the shared text and link. */
  lemma TwitterCarriesTextAndUrl(text: string, shareUrl: string)
    ensures var link := BuildLinks(text, shareUrl).twitter;
            var fields := Fields(link[|TwitterBase|..]);
            && fields == ["text=" + Encode(text), "url=" + Encode(shareUrl), Hashtags]
            && Decode(fields[0][5..]) == Some(text)
            && Decode(fields[1][4..]) == Some(shareUrl)
  {
    DropPrefix(TwitterBase, TwitterQuery(Encode(text), Encode(shareUrl)));
    TwitterFields(text, shareUrl);
    DropPrefix("text=", Encode(text));
    DropPrefix("url=", Encode(shareUrl));
    DecodeEncode(text);
    DecodeEncode(shareUrl);
  }

  /** The Facebook and LinkedIn links carry only the encoded link: it decodes
      back, and the shared text never appears in them. */
  lemma FacebookLinkedInCarryOnlyUrl(text: string, other: string, shareUrl: string)
    ensures Decode(BuildLinks(text, shareUrl).facebook[|FacebookBase|..]) == Some(shareUrl)
    ensures Decode(BuildLinks(text, shareUrl).linkedin[|LinkedInBase|..]) == Some(shareUrl)
    ensures BuildLinks(text, shareUrl).facebook == BuildLinks(other, shareUrl).facebook
    ensures BuildLinks(text, shareUrl).linkedin == BuildLinks(other, shareUrl).linkedin
  {
    DecodeEncode(shareUrl);
  }

  lemma EncodeJoin(a: string, sep: string, b: string)
    ensures Encode(a + sep + b) == Encode(a) + Encode(sep) + Encode(b)
  {
    EncodeAppend(a + sep, b);
    EncodeAppend(a, sep);
  }

  /** Encoding the text and the link on their own and joining them with an
      encoded space is encoding the message as a whole. */
  lemma EncodeMessage(text: string, shareUrl: string)
    ensures WhatsAppMessage(Encode(text), Encode(shareUrl)) == Encode(text + " " + shareUrl)
  {
    EncodeJoin(text, " ", shareUrl);
    SpaceEncoding();
  }

  /** The WhatsApp message is the text and the link joined by one space,
      encoded as a whole. */
  lemma WhatsAppCarriesTextThenUrl(text: string, shareUrl: string)
    ensures BuildLinks(text, shareUrl).whatsapp == WhatsAppBase + Encode(text + " " + shareUrl)
    ensures Decode(BuildLinks(text, shareUrl).whatsapp[|WhatsAppBase|..]) == Some(text + " " + shareUrl)
  {
    var whole := text + " " + shareUrl;
    EncodeMessage(text, shareUrl);
    DropPrefix(WhatsAppBase, Encode(whole));
    DecodeEncode(whole);
  }

  lemma SpaceEncoding()
    ensures Encode(" ") == "%20"
  {
    assert Utf8(' ') == [32];
    assert EncodeByte(32) == "%20";
    assert Encode(" ") == EncodeChar(' ') + Encode("");
  }

  lemma LabelOf(p: Platform, name: string)
    requires |p.Key()| > 0 && |name| == |p.Key()|
    requires name[0] == AsciiUpper(p.Key()[0]) && name[1..] == p.Key()[1..]
    ensures ShareLabel(p) == "Content shared on " + name
  {
    assert Capitalize(p.Key()) == name;
  }

  /** The share toasts name the platforms with only the first letter raised. */
  lemma ShareLabels(p: Platform)
    ensures ShareLabel(p) == "Content shared on " + match p
                                                      case Twitter => "Twitter"
                                                      case Facebook => "Facebook"
                                                      case LinkedIn => "Linkedin"
                                                      case WhatsApp => "Whatsapp"
  {
    match p
    case Twitter => LabelOf(Twitter, "Twitter");
    case Facebook => LabelOf(Facebook, "Facebook");
    case LinkedIn => LabelOf(LinkedIn, "Linkedin");
    case WhatsApp => LabelOf(WhatsApp, "Whatsapp");
  }
}

=== FILE: uri_encoding.dfy ===
/** `encodeURIComponent` as ECMAScript defines it: every character outside the
    unescaped set (ASCII letters, digits and `- _ . ! ~ * ' ( )`) is replaced by
    the percent-encoded octets of its UTF-8 encoding, in the sense of section 2.1
    of RFC 3986 (upper-case hexadecimal digits). `Decode` is the matching
    `decodeURIComponent`; the application never decodes, it serves here as the
    inverse that the encoder is checked against. */
module UriEncoding {
  import opened Wrappers

  type byte = b: int | 0 <= b < 256

  /** The characters `encodeURIComponent` leaves as they are. */
  predicate IsUnescaped(c: char) {
    || ('A' <= c <= 'Z') || ('a' <= c <= 'z') || ('0' <= c <= '9')
    || c == '-' || c == '_' || c == '.' || c == '!' || c == '~'
    || c == '*' || c == '\'' || c == '(' || c == ')'
  }

  const HexDigits: string := "0123456789ABCDEF"

  predicate IsUpperHexDigit(c: char) {
    ('0' <= c <= '9') || ('A' <= c <= 'F')
  }

  /** A character that may appear in an encoded component. */
  predicate IsEncodedChar(c: char) {
    IsUnescaped(c) || c == '%'
  }

  /** The shape of an encoded component: unescaped characters and `%XY` escapes
      whose two hexadecimal digits are upper-case. */
  predicate Escaped(e: string)
    decreases |e|
  {
    if |e| == 0 then true
    else if e[0] == '%' then |e| >= 3 && IsUpperHexDigit(e[1]) && IsUpperHexDigit(e[2]) && Escaped(e[3..])
    else IsUnescaped(e[0]) && Escaped(e[1..])
  }

  /** The value of a hexadecimal digit of either case. */
  function HexValue(c: char): Option<nat>
  {
    if '0' <= c <= '9' then Some(c as int - '0' as int)
    else if 'A' <= c <= 'F' then Some(c as int - 'A' as int + 10)
    else if 'a' <= c <= 'f' then Some(c as int - 'a' as int + 10)
    else None
  }

  predicate IsScalarValue(n: int) {
    (0 <= n < 0xD800) || (0xE000 <= n < 0x11_0000)
  }

  /** The UTF-8 encoding of one Unicode scalar value (RFC 3629, section 3). */
  function Utf8(c: char): (bs: seq<byte>)
    ensures 1 <= |bs| <= 4
    ensures |bs| == 1 <==> c as int < 0x80
  {
    var n := c as int;
    if n < 0x80 then [n]
    else if n < 0x800 then [0xC0 + n / 64, 0x80 + n % 64]
    else if n < 0x1_0000 then [0xE0 + n / 4096, 0x80 + (n / 64) % 64, 0x80 + n % 64]
    else [0xF0 + n / 262144, 0x80 + (n / 4096) % 64, 0x80 + (n / 64) % 64, 0x80 + n % 64]
  }

  /** The length of a UTF-8 sequence announced by its first octet; 0 when the
      octet cannot start one. */
  function Utf8Length(lead: byte): nat
  {
    if lead < 0x80 then 1
    else if 0xC0 <= lead < 0xE0 then 2
    else if 0xE0 <= lead < 0xF0 then 3
    else if 0xF0 <= lead < 0xF8 then 4
    else 0
  }

  predicate IsTail(b: byte) {
    0x80 <= b <= 0xBF
  }

  /** A well-formed UTF-8 sequence for one character, following the syntax of
      section 4 of RFC 3629: no overlong form, no surrogate, nothing above
      U+10FFFF. */
  predicate WellFormedUtf8(bs: seq<byte>) {
    || (|bs| == 1 && bs[0] <= 0x7F)
    || (|bs| == 2 && 0xC2 <= bs[0] <= 0xDF && IsTail(bs[1]))
    || (|bs| == 3 && IsTail(bs[2])
        && (|| (bs[0] == 0xE0 && 0xA0 <= bs[1] <= 0xBF)
            || (0xE1 <= bs[0] <= 0xEC && IsTail(bs[1]))
            || (bs[0] == 0xED && 0x80 <= bs[1] <= 0x9F)
            || (0xEE <= bs[0] <= 0xEF && IsTail(bs[1]))))
    || (|bs| == 4 && IsTail(bs[2]) && IsTail(bs[3])
        && (|| (bs[0] == 0xF0 && 0x90 <= bs[1] <= 0xBF)
            || (0xF1 <= bs[0] <= 0xF3 && IsTail(bs[1]))
            || (bs[0] == 0xF4 && 0x80 <= bs[1] <= 0x8F)))
  }

  /** The scalar value a well-formed UTF-8 sequence of one to four octets
      denotes; `None` for a malformed, overlong or surrogate sequence. */
  function Utf8Decode(bs: seq<byte>): (r: Option<char>)
    requires 1 <= |bs| <= 4
    ensures r.Some? ==> Utf8(r.value) == bs
  {
    var b: seq<int> := bs;
    var n :=
      if |b| == 1 then b[0]
      else if |b| == 2 then (b[0] - 0xC0) * 64 + (b[1] - 0x80)
      else if |b| == 3 then (b[0] - 0xE0) * 4096 + (b[1] - 0x80) * 64 + (b[2] - 0x80)
      else (b[0] - 0xF0) * 262144 + (b[1] - 0x80) * 4096 + (b[2] - 0x80) * 64 + (b[3] - 0x80);
    if IsScalarValue(n) && Utf8(n as char) == bs then Some(n as char) else None
  }

  /** `%XY` for one octet. */
  function EncodeByte(b: byte): (r: string)
    ensures |r| == 3 && r[0] == '%' && IsUpperHexDigit(r[1]) && IsUpperHexDigit(r[2])
    ensures HexValue(r[1]) == Some(b / 16) && HexValue(r[2]) == Some(b % 16)
  {
    ['%', HexDigits[b / 16], HexDigits[b % 16]]
  }

  /** One `%XY` escape per octet, in order, with upper-case digits;
      `UnescapeEncodedBytes` reads the octets back. */
  function EncodeBytes(bs: seq<byte>): (r: string)
    ensures |r| == 3 * |bs|
    ensures Escaped(r)
  {
    if |bs| == 0 then ""
    else
      var head := EncodeByte(bs[0]);
      var rest := EncodeBytes(bs[1..]);
      EscapedByte(bs[0]);
      EscapedAppend(head, rest);
      head + rest
  }

  lemma EscapedByte(b: byte)
    ensures Escaped(EncodeByte(b))
  {
    assert EncodeByte(b)[3..] == "";
  }

  /** An unescaped character stands for itself; any other character becomes the
      escapes of its UTF-8 octets. */
  function EncodeChar(c: char): (r: string)
    ensures IsUnescaped(c) ==> r == [c]
    ensures !IsUnescaped(c) ==> r == EncodeBytes(Utf8(c))
    ensures Escaped(r)
  {
    if IsUnescaped(c) then [c] else EncodeBytes(Utf8(c))
  }

  /** `encodeURIComponent(s)`. */
  function Encode(s: string): (r: string)
    ensures |r| >= |s|
    ensures Escaped(r)
    ensures forall i :: 0 <= i < |r| ==> IsEncodedChar(r[i])
  {
    if |s| == 0 then ""
    else
      var head := EncodeChar(s[0]);
      var rest := Encode(s[1..]);
      EscapedAppend(head, rest);
      EscapedChars(head + rest);
      head + rest
  }

  /** Escaped components concatenate into an escaped component. */
  lemma {:induction false} EscapedAppend(a: string, b: string)
    requires Escaped(a) && Escaped(b)
    ensures Escaped(a + b)
    decreases |a|
  {
    if |a| > 0 {
      if a[0] == '%' {
        assert (a + b)[3..] == a[3..] + b;
        EscapedAppend(a[3..], b);
      } else {
        assert (a + b)[1..] == a[1..] + b;
        EscapedAppend(a[1..], b);
      }
    } else {
      assert a + b == b;
    }
  }

  /** Every character of an escaped component is unescaped or `%`. */
  lemma {:induction false} EscapedChars(e: string)
    requires Escaped(e)
    ensures forall i :: 0 <= i < |e| ==> IsEncodedChar(e[i])
    decreases |e|
  {
    if |e| > 0 {
      var n := if e[0] == '%' then 3 else 1;
      EscapedChars(e[n..]);
      assert forall i :: n <= i < |e| ==> e[i] == e[n..][i - n];
    }
  }

  /** Reads `k` consecutive `%XY` escapes from the front of `e`. */
  function UnescapeBytes(e: string, k: nat): (r: Option<seq<byte>>)
    ensures r.Some? ==> |r.value| == k
  {
    if k == 0 then Some([])
    else if |e| < 3 || e[0] != '%' then None
    else match (HexValue(e[1]), HexValue(e[2]))
      case (Some(hi), Some(lo)) =>
        (match UnescapeBytes(e[3..], k - 1)
         case Some(bs) => Some([(hi * 16 + lo) as byte] + bs)
         case None => None)
      case _ => None
  }

  function Prepend(c: char, r: Option<string>): Option<string>
  {
    match r
    case Some(t) => Some([c] + t)
    case None => None
  }

  /** `decodeURIComponent(e)`; `None` where it throws a URIError. */
  function Decode(e: string): (r: Option<string>)
    decreases |e|
  {
    if |e| == 0 then Some("")
    else if e[0] != '%' then Prepend(e[0], Decode(e[1..]))
    else match UnescapeBytes(e, 1)
      case None => None
      case Some(lead) =>
        var k := Utf8Length(lead[0]);
        if k == 0 || |e| < 3 * k then None
        else match UnescapeBytes(e, k)
          case None => None
          case Some(bs) =>
            match Utf8Decode(bs)
            case None => None
            case Some(c) => Prepend(c, Decode(e[3 * k..]))
  }

  // ---------------------------------------------------------------------------
  // Properties

  /** Encoding distributes over concatenation: each character is encoded on its own. */
  lemma {:induction false} EncodeAppend(a: string, b: string)
    ensures Encode(a + b) == Encode(a) + Encode(b)
  {
    if |a| > 0 {
      assert (a + b)[0] == a[0];
      assert (a + b)[1..] == a[1..] + b;
      EncodeAppend(a[1..], b);
    } else {
      assert a + b == b;
    }
  }

  /** A string is left unchanged by encoding exactly when all its characters are unescaped. */
  lemma {:induction false} EncodeIdentity(s: string)
    ensures Encode(s) == s <==> forall i :: 0 <= i < |s| ==> IsUnescaped(s[i])
  {
    if |s| > 0 {
      EncodeIdentity(s[1..]);
      if !IsUnescaped(s[0]) {
        var e := EncodeChar(s[0]);
        assert |e| >= 3 && e[0] == '%';
        assert |Encode(s)| >= 3 + |s[1..]|;
      } else {
        assert forall i :: 1 <= i < |s| ==> s[i] == s[1..][i - 1];
        if Encode(s) == s {
          assert Encode(s[1..]) == Encode(s)[1..];
        }
      }
    }
  }

  lemma {:induction false} UnescapeEncodedBytes(bs: seq<byte>, rest: string, k: nat)
    requires k <= |bs|
    ensures UnescapeBytes(EncodeBytes(bs) + rest, k) == Some(bs[..k])
  {
    if k > 0 {
      var head := EncodeByte(bs[0]);
      var more := EncodeBytes(bs[1..]);
      var tail := more + rest;
      assert EncodeBytes(bs) + rest == head + tail by {
        assert EncodeBytes(bs) == head + more;
      }
      UnescapeEncodedByte(bs[0], tail, k);
      UnescapeEncodedBytes(bs[1..], rest, k - 1);
      assert bs[..k] == [bs[0]] + bs[1..][..k - 1];
    }
  }

  /** One escape is read back as the octet it encodes. */
  lemma UnescapeEncodedByte(b: byte, tail: string, k: nat)
    requires k > 0
    ensures UnescapeBytes(EncodeByte(b) + tail, k)
            == match UnescapeBytes(tail, k - 1)
               case Some(bs) => Some([b] + bs)
               case None => None
  {
    var e := EncodeByte(b) + tail;
    assert e[0] == '%' && HexValue(e[1]) == Some(b / 16) && HexValue(e[2]) == Some(b % 16);
    assert e[3..] == tail;
  }

  /** A scalar value is recovered from its UTF-8 encoding, whose first octet announces its length. */
  lemma Utf8RoundTrip(c: char)
    ensures Utf8Length(Utf8(c)[0]) == |Utf8(c)|
    ensures Utf8Decode(Utf8(c)) == Some(c)
  {
    var n := c as int;
    if n >= 0x1_0000 {
      Utf8RoundTrip4(c);
    } else if n >= 0x800 {
      Utf8RoundTrip3(c);
    }
  }

  lemma Utf8RoundTrip4(c: char)
    requires c as int >= 0x1_0000
    ensures Utf8Length(Utf8(c)[0]) == 4
    ensures Utf8Decode(Utf8(c)) == Some(c)
  {
    var n := c as int;
    var hi, b2, b1, b0 := n / 262144, (n / 4096) % 64, (n / 64) % 64, n % 64;
    var q1 := n / 64;
    var q2 := q1 / 64;
    assert n == q1 * 64 + b0;
    assert (n / 64) / 64 == n / 4096;
    assert q1 == q2 * 64 + b1;
    assert q2 / 64 == hi && q2 % 64 == b2;
    assert q2 == hi * 64 + b2;
    assert hi < 5;
    assert n == hi * 262144 + b2 * 4096 + b1 * 64 + b0;
    assert Utf8(c) == [0xF0 + hi, 0x80 + b2, 0x80 + b1, 0x80 + b0];
  }

  lemma Utf8RoundTrip3(c: char)
    requires 0x800 <= c as int < 0x1_0000
    ensures Utf8Length(Utf8(c)[0]) == 3
    ensures Utf8Decode(Utf8(c)) == Some(c)
  {
    var n := c as int;
    var hi, b1, b0 := n / 4096, (n / 64) % 64, n % 64;
    assert hi < 16;
    assert n == hi * 4096 + b1 * 64 + b0;
    assert Utf8(c) == [0xE0 + hi, 0x80 + b1, 0x80 + b0];
  }

  /** The decoder accepts exactly the encoder's output: a sequence decodes to `c`
      precisely when it is the UTF-8 encoding of `c`. */
  lemma Utf8DecodeExact(bs: seq<byte>, c: char)
    requires 1 <= |bs| <= 4
    ensures Utf8Decode(bs) == Some(c) <==> Utf8(c) == bs
  {
    if Utf8(c) == bs {
      Utf8RoundTrip(c);
    }
  }

  /** The decoder accepts exactly the well-formed sequences of RFC 3629. */
  lemma Utf8DecodeWellFormed(bs: seq<byte>)
    requires 1 <= |bs| <= 4
    ensures Utf8Decode(bs).Some? <==> WellFormedUtf8(bs)
  {
    if Utf8Decode(bs).Some? {
      Utf8WellFormed(Utf8Decode(bs).value);
    }
    if WellFormedUtf8(bs) {
      WellFormedDecodes(bs);
    }
  }

  /** Every encoding is well-formed. */
  lemma Utf8WellFormed(c: char)
    ensures WellFormedUtf8(Utf8(c))
  {
    var n := c as int;
    if n >= 0x1_0000 {
      Utf8WellFormed4(c);
    } else if n >= 0x800 {
      Utf8WellFormed3(c);
    } else if n >= 0x80 {
      assert Utf8(c)[0] == 0xC0 + n / 64;
    }
  }

  lemma Utf8WellFormed4(c: char)
    requires c as int >= 0x1_0000
    ensures WellFormedUtf8(Utf8(c))
  {
    var n := c as int;
    var hi, b2 := n / 262144, (n / 4096) % 64;
    assert n / 4096 == hi * 64 + b2;
    assert hi == 0 ==> b2 >= 16;
    assert hi == 4 ==> b2 < 16;
    assert Utf8(c)[0] == 0xF0 + hi && Utf8(c)[1] == 0x80 + b2;
  }

  lemma Utf8WellFormed3(c: char)
    requires 0x800 <= c as int < 0x1_0000
    ensures WellFormedUtf8(Utf8(c))
  {
    var n := c as int;
    var hi, b1 := n / 4096, (n / 64) % 64;
    assert n / 64 == hi * 64 + b1;
    assert hi == 0 ==> b1 >= 32;
    assert hi == 13 ==> b1 < 32;
    assert Utf8(c)[0] == 0xE0 + hi && Utf8(c)[1] == 0x80 + b1;
  }

  /** Every well-formed sequence decodes. */
  lemma WellFormedDecodes(bs: seq<byte>)
    requires WellFormedUtf8(bs)
    ensures Utf8Decode(bs).Some?
  {
    if |bs| == 2 {
      WellFormedDecodes2(bs);
    } else if |bs| == 3 {
      WellFormedDecodes3(bs);
    } else if |bs| == 4 {
      WellFormedDecodes4(bs);
    }
  }

  lemma WellFormedDecodes2(bs: seq<byte>)
    requires |bs| == 2 && WellFormedUtf8(bs)
    ensures Utf8Decode(bs).Some?
  {
    var hi: int, b0: int := bs[0] as int - 0xC0, bs[1] as int - 0x80;
    var n := hi * 64 + b0;
    assert n / 64 == hi && n % 64 == b0;
    assert Utf8(n as char) == bs;
  }

  lemma WellFormedDecodes3(bs: seq<byte>)
    requires |bs| == 3 && WellFormedUtf8(bs)
    ensures Utf8Decode(bs).Some?
  {
    var hi: int, b1: int, b0: int := bs[0] as int - 0xE0, bs[1] as int - 0x80, bs[2] as int - 0x80;
    var n := hi * 4096 + b1 * 64 + b0;
    var q1 := hi * 64 + b1;
    assert n == q1 * 64 + b0;
    assert n / 64 == q1 && n % 64 == b0;
    assert q1 / 64 == hi && q1 % 64 == b1;
    assert n / 4096 == hi;
    assert IsScalarValue(n);
    assert Utf8(n as char) == [0xE0 + hi, 0x80 + b1, 0x80 + b0] == bs;
  }

  lemma WellFormedDecodes4(bs: seq<byte>)
    requires |bs| == 4 && WellFormedUtf8(bs)
    ensures Utf8Decode(bs).Some?
  {
    var hi: int, b2: int, b1: int, b0: int :=
      bs[0] as int - 0xF0, bs[1] as int - 0x80, bs[2] as int - 0x80, bs[3] as int - 0x80;
    var q2: int := hi * 64 + b2;
    var q1: int := q2 * 64 + b1;
    var n: int := q1 * 64 + b0;
    assert n == hi * 262144 + b2 * 4096 + b1 * 64 + b0;
    assert n / 64 == q1 && n % 64 == b0;
    assert q1 / 64 == q2 && q1 % 64 == b1;
    assert n / 4096 == q2;
    assert q2 / 64 == hi && q2 % 64 == b2;
    assert n / 262144 == hi;
    assert IsScalarValue(n);
    assert Utf8(n as char) == [0xF0 + hi, 0x80 + b2, 0x80 + b1, 0x80 + b0] == bs;
  }

  lemma DecodeEncodeChar(c: char, rest: string)
    ensures Decode(EncodeChar(c) + rest) == Prepend(c, Decode(rest))
  {
    var e := EncodeChar(c) + rest;
    if IsUnescaped(c) {
      assert e[0] == c && e[1..] == rest;
    } else {
      var bs := Utf8(c);
      Utf8RoundTrip(c);
      UnescapeEncodedBytes(bs, rest, 1);
      UnescapeEncodedBytes(bs, rest, |bs|);
      assert bs[..|bs|] == bs;
      assert e[0] == '%';
      assert e[3 * |bs|..] == rest;
    }
  }

  function PrependAll(s: string, r: Option<string>): Option<string>
  {
    match r
    case Some(t) => Some(s + t)
    case None => None
  }

  lemma {:induction false} EncodeCons(s: string, rest: string)
    requires |s| > 0
    ensures Encode(s) + rest == EncodeChar(s[0]) + (Encode(s[1..]) + rest)
  {
    assert Encode(s) == EncodeChar(s[0]) + Encode(s[1..]);
  }

  lemma PrependCons(s: string, r: Option<string>)
    requires |s| > 0
    ensures Prepend(s[0], PrependAll(s[1..], r)) == PrependAll(s, r)
  {
    if r.Some? {
      assert [s[0]] + (s[1..] + r.value) == s + r.value;
    }
  }

  /** Decoding undoes encoding, whatever follows the encoded text. */
  lemma {:induction false} DecodeEncodePrefix(s: string, rest: string)
    ensures Decode(Encode(s) + rest) == PrependAll(s, Decode(rest))
  {
    if |s| > 0 {
      var tail := Encode(s[1..]) + rest;
      EncodeCons(s, rest);
      DecodeEncodeChar(s[0], tail);
      DecodeEncodePrefix(s[1..], rest);
      PrependCons(s, Decode(rest));
    } else {
      assert Encode(s) + rest == rest;
      if Decode(rest).Some? {
        assert s + Decode(rest).value == Decode(rest).value;
      }
    }
  }

  /** `decodeURIComponent(encodeURIComponent(s)) == s`. */
  lemma DecodeEncode(s: string)
    ensures Decode(Encode(s)) == Some(s)
  {
    DecodeEncodePrefix(s, "");
    assert Encode(s) + "" == Encode(s);
    assert s + "" == s;
  }
}

=== FILE: wrappers.dfy ===
/** The optional value used wherever the application reads something that may be
    `undefined` (an optional argument, a missing response field, `NaN` from a parse). */
module Wrappers {

  datatype Option<+T> = None | Some(value: T) {

    /** The value, or `default` where it is absent. */
    function GetOr(default: T): T {
      match this
      case Some(v) => v
      case None => default
    }
  }
}
